=== FILE: README.md ===
# PPPoE subscription engine

A Dafny model of the subscription core of an ISP back office. PPPoE customers subscribe to packages, and a MikroTik router carries one PPPoE secret per customer. A subscription moves through PENDING, PAID, ACTIVE and EXPIRED.

The model covers three parts:

- **`PppoeSubscriptionService`**, the lifecycle engine:
  - creation by the user and by an admin;
  - marking as paid;
  - activation, now or later;
  - package upgrade;
  - payment reconciliation;
  - the expiry sweep;
  - the admin expiry extension;
  - reactivation.
- **`MikrotikPppoeService`**, the device side, seen as a router's table of secrets.
- **`PayHeroController.handleCallback`**, the payment gateway's callback: field extraction, then log, then a decision to activate.

Every engine operation is a pure function. It takes the engine's world: the subscription store, the package catalogue, the billing ledger and the router tables. It returns a `Run`, which holds three things:

- the world after the operation;
- the ordered trace of collaborator calls that took effect: saves (`Saved`), ledger entries (`Booked`), router commands the router accepted (`DeviceCommand`), and every SMS attempt with whether the gateway accepted it (`Notified`); a refused router command ends the operation with its error and leaves no trace entry;
- either the returned subscription or the error thrown.

On an error, the world returned is the one the statements before the throw left behind. This makes the call order, the guards and "nothing else changes" checkable. It also exposes the one place where an early save matters (see Findings).

The modules:

| file | module | models |
|---|---|---|
| `outcomes.dfy` | `Outcomes` | `Option` and `Result` |
| `router_table.dfy` | `RouterTable` | `MikrotikPppoeService` as operations on a secret table |
| `ledger.dfy` | `Ledger` | the billing ledger the engine charges and credits; balance = charges − payments |
| `lifecycle.dfy` | `Lifecycle` | `PppoeSubscriptionService` |
| `lifecycle_proofs.dfy` | `LifecycleProofs` | properties relating several runs of the engine |
| `java_text.dfy` | `JavaText` | `Integer.parseInt`, the decimal syntax `Double.parseDouble` accepts, `String.equalsIgnoreCase` |
| `payment_callback.dfy` | `PaymentCallback` | `PayHeroController.handleCallback` |

Several inputs that the Java service reads from outside are parameters of the model:

- **Time:** one clock reading per operation. It holds `now` and the instant one month later, which is strictly later.
- **Repository queries:** the ordered result lists, constrained to be exactly what each query returns.
- **SMS gateway:** whether it accepts messages (`smsUp`). The flag is one answer for every SMS an operation sends.
- **Upgrade charge:** the amount booked for an upgrade (`upgradeCharge`).
- **Activation service:** whether `UserSubscriptionService.activateSubscription` returns normally (`activationOk`).

## Model

| member | source | states |
|---|---|---|
| RouterTable.FirstMatchFrom | src/main/java/com/neuroisp/service/MikrotikPppoeService.java:60-63 | the scan from row k returns the first row named `name`, or reports that no row carries the name |
| RouterTable.FirstMatch | src/main/java/com/neuroisp/service/MikrotikPppoeService.java:60-66 | `filter(name).findFirst()` finds a row exactly when some row has the name, and the row found is the first such row |
| RouterTable.FirstMatchUnique | src/main/java/com/neuroisp/service/MikrotikPppoeService.java:60-63 | the first match is unique, so every `set` command addresses one row |
| RouterTable.CreateUser | src/main/java/com/neuroisp/service/MikrotikPppoeService.java:25-47 | on a reachable router it appends exactly one enabled secret: the user's name and password, service `pppoe`, the package's profile; earlier rows are unchanged; an unreachable router gives the single create error |
| RouterTable.Locate | src/main/java/com/neuroisp/service/MikrotikPppoeService.java:52-66 | succeeds iff the router answers and some row has the name; the result is the first match; otherwise it reports user-not-found or unreachable |
| RouterTable.DisableUser | src/main/java/com/neuroisp/service/MikrotikPppoeService.java:50-79 | succeeds iff reachable and the name exists; sets `disabled` on the first matching row and changes no other row or field; every failure is one disable error |
| RouterTable.EnableUser | src/main/java/com/neuroisp/service/MikrotikPppoeService.java:118-147 | same lookup and failure rule as disable; clears `disabled` on the first matching row only |
| RouterTable.UpdateProfile | src/main/java/com/neuroisp/service/MikrotikPppoeService.java:80-115 | same lookup and failure rule; changes only the profile of the first matching row |
| RouterTable.Apply | src/main/java/com/neuroisp/service/MikrotikPppoeService.java:25-147 | a command succeeds only on a reachable router; a `set` command succeeds iff its name is in the table |
| RouterTable.FirstMatchFromOnlyReadsNames | src/main/java/com/neuroisp/service/MikrotikPppoeService.java:60-63 | the lookup depends only on the rows' names, so flag and profile changes never move it |
| RouterTable.DisableIdempotent | src/main/java/com/neuroisp/service/MikrotikPppoeService.java:68-74 | disabling twice leaves the same table as disabling once |
| RouterTable.EnableAfterDisable | src/main/java/com/neuroisp/service/MikrotikPppoeService.java:128-142 | enable after disable succeeds, clears the flag on the same row, and restores the table when the row was enabled before |
| RouterTable.ApplyKeepsNames | src/main/java/com/neuroisp/service/MikrotikPppoeService.java:68-74 | no command removes or renames a secret, and a router that answered stays reachable |
| RouterTable.ProfileIgnoresPassword | src/main/java/com/neuroisp/service/MikrotikPppoeService.java:80-110 | the password argument of `updateProfile` has no effect on the table |
| RouterTable.CreateThenFirstMatch | src/main/java/com/neuroisp/service/MikrotikPppoeService.java:35-42 | after adding a name that already exists, the lookup still finds the older row; a new name is found at the appended row |
| Ledger.BalanceAppend | src/main/java/com/neuroisp/service/PppoeSubscriptionService.java:192-201 | booking an entry moves only its own subscriber's balance: up by a charge, down by a payment |
| Ledger.BalanceConcat | src/main/java/com/neuroisp/service/PppoeSubscriptionService.java:200-201 | the balance of concatenated ledgers is the sum of their balances |
| Ledger.BalanceOrderIndependent | src/main/java/com/neuroisp/service/PppoeSubscriptionService.java:200-201 | two ledgers with the same entries, in any order, give the same balance |
| Lifecycle.CreatePending | src/main/java/com/neuroisp/service/PppoeSubscriptionService.java:32-50 | fails with package-not-found, changing nothing, exactly when the package is absent; otherwise it saves a PENDING subscription on the user's router and then books exactly one charge of the package price |
| Lifecycle.Activate | src/main/java/com/neuroisp/service/PppoeSubscriptionService.java:75-102 | the device create comes first; if it fails, nothing changes; on success the subscription is ACTIVE from now until one month later (expiry > start), and the trace is device call, save, SMS whatever the gateway does |
| Lifecycle.MarkAsPaid | src/main/java/com/neuroisp/service/PppoeSubscriptionService.java:54-71 | the receipt is always recorded; with `autoActivate` it succeeds iff the router accepts the new secret, and then the record is ACTIVE for a fresh month, the router has the secret, and the trace is device call, save, SMS, save; without it the record is PAID with a single save and no device call; an unknown id or a failed activation changes nothing and leaves no call in the trace, and a failed activation reports the router's refusal to create the secret; the catalogue is never touched |
| Lifecycle.CreateByAdmin | src/main/java/com/neuroisp/service/PppoeSubscriptionService.java:103-125 | save, then charge, then activate when asked; with `activateNow` it succeeds iff the router accepts the new secret, and then the router gains it and the trace is save, charge, device call, save, SMS; a device failure leaves the record ACTIVE with no start or expiry (as written), the routers untouched, and only the save and the charge in the trace |
| Lifecycle.CreateByAdminCorrected | src/main/java/com/neuroisp/service/PppoeSubscriptionService.java:103-125 | same save-then-charge order; without `activateNow` it returns the PENDING record with no device call; with it, success iff the router accepts, with the same router effect and trace; a failure leaves the record PENDING, the routers untouched and only the save and the charge in the trace; every subscription stays timed on every path |
| Lifecycle.ActivateLater | src/main/java/com/neuroisp/service/PppoeSubscriptionService.java:127-138 | anything but PENDING or PAID is refused with no device call and no change; otherwise the run is exactly that of `activate`, so it succeeds iff the router accepts the new secret |
| Lifecycle.UpgradePackage | src/main/java/com/neuroisp/service/PppoeSubscriptionService.java:139-179 | non-ACTIVE subscriptions and unknown packages are refused before any charge or device call; the charge comes first, then the profile change; the package field changes only after the router accepts; the status stays ACTIVE; an SMS failure surfaces as an error; the catalogue is never touched |
| Lifecycle.ReactivateExpired | src/main/java/com/neuroisp/service/PppoeSubscriptionService.java:329-353 | re-enables the secret first, changing nothing if that fails; on acceptance the router table carries the re-enabled secret and the record gets a fresh period: start now, expiry one month later; the unguarded SMS decides the outcome |
| Lifecycle.UpdateExpiryDate | src/main/java/com/neuroisp/service/PppoeSubscriptionService.java:302-327 | an expiry before now is refused with no change; otherwise expiry becomes exactly the new instant and start is kept; an EXPIRED subscription becomes ACTIVE, succeeding iff the router accepts the re-enable, which then shows in the router table; the catalogue is never touched |
| Lifecycle.SettleOne | src/main/java/com/neuroisp/service/PppoeSubscriptionService.java:226-231 | EXPIRED takes reactivation (re-enable), anything else is forced PAID and activated (create); on success the record is freshly activated and the trace is that command, the save, the SMS; only that subscription's router can change, and the router tables are exactly what the accepted commands in the trace produce; it succeeds whenever the router accepts and the SMS gateway is up |
| Lifecycle.SettleInOrder | src/main/java/com/neuroisp/service/PppoeSubscriptionService.java:219-232 | a positive balance stops the walk with no change; otherwise a successful walk activates every listed subscription, and unlisted ones stay as they are |
| Lifecycle.SettleInOrderEffects | src/main/java/com/neuroisp/service/PppoeSubscriptionService.java:219-232 | the router tables after the walk are exactly what its traced commands produce, applied in order, each one accepted; only routers of listed subscriptions change; after a successful walk with the balance settled, each listed subscription's command (re-enable for EXPIRED, create for the others) was accepted and followed by its save |
| Lifecycle.SettleOneFails | src/main/java/com/neuroisp/service/PppoeSubscriptionService.java:226-231 | a failing step either was refused by the router, leaving the record unchanged and no call in the trace, or reactivated an EXPIRED subscription (re-enable, save ACTIVE for a fresh month) and failed only on its SMS with the gateway down, leaving exactly those three calls |
| Lifecycle.SettleInOrderOldestFirst | src/main/java/com/neuroisp/service/PppoeSubscriptionService.java:219-232 | with the balance settled, a walk that goes through makes exactly the command, save and SMS of each listed subscription, in listing order |
| Lifecycle.SettleInOrderStopsInOrder | src/main/java/com/neuroisp/service/PppoeSubscriptionService.java:219-232 | with the balance settled, a walk that fails stopped at the position the lemma returns: every subscription before it is activated and its calls open the trace in order; the one at it failed in one of the two ways of `SettleOneFails`, its calls (none, or its re-enable, save and SMS) ending the trace; every one after it is unchanged |
| Lifecycle.HandlePayment | src/main/java/com/neuroisp/service/PppoeSubscriptionService.java:185-233 | the payment is booked first and lowers the balance by its amount; a balance still above zero changes no subscription or router; otherwise a successful run is the booking followed by each listed subscription's command, save and SMS, oldest first, leaving all of them activated, and a failed run is the booking, the calls of every older subscription, which are all activated, and then at most the re-enable, save and SMS of the subscription it stopped at, which is either unchanged (its router refused) or an EXPIRED one reactivated whose SMS failed; all newer ones are unchanged; the router tables are exactly what the traced commands produce; only routers of listed subscriptions change; the catalogue is never touched |
| Lifecycle.SuspendOne | src/main/java/com/neuroisp/service/PppoeSubscriptionService.java:245-267 | a subscriber owing nothing is untouched; otherwise the secret is disabled first, then the record is saved EXPIRED, then the SMS is sent; a failure is either the router's refusal, with the record unchanged and no call, or the SMS alone, after the disable and the EXPIRED save; only that subscription's router can change, and the router tables are exactly what the accepted command in the trace produces |
| Lifecycle.SuspendInOrder | src/main/java/com/neuroisp/service/PppoeSubscriptionService.java:245-268 | subscriptions of subscribers owing nothing and unlisted ones are untouched; a successful run expires every listed subscription whose subscriber owes |
| Lifecycle.SuspendInOrderEffects | src/main/java/com/neuroisp/service/PppoeSubscriptionService.java:245-268 | the router tables after the loop are exactly what its traced commands produce, applied in order, each one accepted; only routers of owing listed subscribers change; after a successful run each owing listed subscriber's secret was disabled and the record saved right after; the exact calls, after a success and after a failure, are the contracts of `SuspendInOrderInListingOrder` and `SuspendInOrderStopsInOrder` |
| Lifecycle.SuspendInOrderInListingOrder | src/main/java/com/neuroisp/service/PppoeSubscriptionService.java:245-268 | a loop that goes through makes exactly the disable, save and SMS of each listed subscriber who owes, in listing order, and no call for the others |
| Lifecycle.SuspendInOrderStopsInOrder | src/main/java/com/neuroisp/service/PppoeSubscriptionService.java:245-268 | a loop that fails stopped at some position: every owing subscriber before it is EXPIRED and their calls open the trace in order; the subscriber at it owes and was either refused by the router, unchanged and with no call, or disabled and saved EXPIRED with only the SMS failing, those three calls ending the trace; every subscription after it is unchanged |
| Lifecycle.SuspendExpiredUnpaid | src/main/java/com/neuroisp/service/PppoeSubscriptionService.java:237-269 | only ACTIVE subscriptions past expiry are touched; after a successful run each one whose subscriber owes is EXPIRED, with its disable accepted by the router right before its save; the rest, and the routers none of them lives on, are unchanged; the router tables are exactly what the traced commands produce; a successful run's trace is the disable, save and SMS of each owing subscriber in listing order, and a failed run stopped at one owing subscriber as `SuspendInOrderStopsInOrder` describes; when nobody owes, nothing happens at all |
| LifecycleProofs.SmsNeverAbortsActivation | src/main/java/com/neuroisp/service/PppoeSubscriptionService.java:91-98 | an SMS failure does not change the world or the result of `activate`, which is still ACTIVE |
| LifecycleProofs.SweepTwiceIsNoop | src/main/java/com/neuroisp/service/PppoeSubscriptionService.java:237-269 | a second sweep with the same clock changes nothing and issues no call |
| LifecycleProofs.SettleInOrderReachesEveryListed | src/main/java/com/neuroisp/service/PppoeSubscriptionService.java:219-232 | the balance re-check never stops the walk: with the balance at or below zero, routers ready and the SMS gateway up, the walk succeeds |
| LifecycleProofs.PaymentThatSettlesActivatesAll | src/main/java/com/neuroisp/service/PppoeSubscriptionService.java:192-232 | when every listed subscription's router answers, every EXPIRED one's secret is still on its router, and the SMS gateway is up, a payment that brings the balance to zero or below succeeds and leaves every PENDING, PAID and EXPIRED subscription of the subscriber ACTIVE for a fresh month |
| LifecycleProofs.PaymentThatLeavesDebtChangesNothing | src/main/java/com/neuroisp/service/PppoeSubscriptionService.java:192-206 | a payment that leaves a positive balance only books the payment |
| LifecycleProofs.ReactivationDuplicatesSecret | src/main/java/com/neuroisp/service/PppoeSubscriptionService.java:62-70 | auto-activating a subscription whose secret already exists adds a second row with the same name, and the lookup keeps addressing the older row |
| LifecycleProofs.CreateByAdminStrandsActiveSubscription | src/main/java/com/neuroisp/service/PppoeSubscriptionService.java:108-122 | counterexample: with the router unreachable, admin creation with immediate activation leaves an ACTIVE subscription with no period; the sweep never lists it, and `activateLater` refuses it |
| LifecycleProofs.CreateByAdminCorrectedIsRetryable | src/main/java/com/neuroisp/service/PppoeSubscriptionService.java:108-122 | the corrected creation keeps every subscription timed; after a device failure the record is PENDING, and `activateLater` activates it for a fresh month as soon as the user's router answers |
| JavaText.ParseInt | src/main/java/com/neuroisp/contoller/PayHeroController.java:31 | a parsed value is a 32-bit integer, and the text starts with a sign or a digit |
| JavaText.ParseIntRoundTrip | src/main/java/com/neuroisp/contoller/PayHeroController.java:31 | every 32-bit integer, printed in decimal, parses back to itself |
| JavaText.ParseIntZero | src/main/java/com/neuroisp/contoller/PayHeroController.java:43 | the result code parses to 0 exactly for an optional sign followed by one or more zeros |
| JavaText.IntegerTextIsDouble | src/main/java/com/neuroisp/contoller/PayHeroController.java:32 | a whole amount printed in decimal is accepted as a double |
| JavaText.Trim | src/main/java/com/neuroisp/contoller/PayHeroController.java:32 | the trimmed text is no longer than the input and starts and ends with a character above U+0020 |
| JavaText.TrimInfix | src/main/java/com/neuroisp/contoller/PayHeroController.java:32 | trimming keeps a contiguous part of the input in place and drops only characters up to U+0020 around it |
| JavaText.IsJavaDouble | src/main/java/com/neuroisp/contoller/PayHeroController.java:32 | a blank amount is refused |
| JavaText.AcceptedAmountHasDigit | src/main/java/com/neuroisp/contoller/PayHeroController.java:32 | every accepted amount other than NaN and Infinity contains a decimal digit |
| JavaText.FractionalAmountAccepted | src/main/java/com/neuroisp/contoller/PayHeroController.java:32 | an amount such as "12.50" is accepted |
| JavaText.MalformedAmountsRefused | src/main/java/com/neuroisp/contoller/PayHeroController.java:32 | a lone point and a dangling exponent are refused, as `parseDouble` throws on them |
| JavaText.SuccessSpellings | src/main/java/com/neuroisp/contoller/PayHeroController.java:43 | a status matches "Success" ignoring case iff it has seven characters, each an upper- or lower-case letter of the word, where `s` may also be the long s |
| JavaText.EqualsIgnoreCase | src/main/java/com/neuroisp/contoller/PayHeroController.java:43 | equal strings always match, and matching strings have the same length |
| JavaText.EqualsIgnoreCaseSymmetric | src/main/java/com/neuroisp/contoller/PayHeroController.java:43 | the comparison gives the same answer whichever string it is called on |
| PaymentCallback.Extract | src/main/java/com/neuroisp/contoller/PayHeroController.java:26-32 | extraction succeeds iff the response is present, all five keys are present, ResultCode parses as an int and Amount as a double; the fields are those values |
| PaymentCallback.HandleCallback | src/main/java/com/neuroisp/contoller/PayHeroController.java:24-48 | an unreadable payload fails before any call; otherwise the log comes first and exactly once, followed by one activation with the reference and receipt iff the payment succeeded; every non-failing call returns "OK" |
| PaymentCallback.ActivationDecision | src/main/java/com/neuroisp/contoller/PayHeroController.java:43-45 | activation is requested iff the result code text is a zero numeral and the status is a spelling of "Success" |

## Left out

- `@Transactional` rollback is not modelled. On an error, whatever the statements before the throw saved stays saved. For `handlePaymentAndAutoActivate`, `suspendExpiredUnpaid`, `updateExpiryDate` and `reactivateExpired`, the framework would roll those writes back. Device commands and SMS calls cannot be rolled back in either case.
- Opening a router session, logging in and formatting command strings are collapsed into the router's `reachable` flag. A router id that is not in the world counts as unreachable.
- `IspCompanyService.getActiveCompany` and the SMS message text are left out. An SMS is a `Notified(phone, delivered)` effect.
- `createPppoeUser` prints the router's login name and password to standard output before it adds the secret. Console output is not modelled, so no effect records that leak.
- `BillingService` is not part of this model. It is replaced by an append-only ledger whose balance is charges minus payments, in whole currency units rather than doubles. The payment method and the memo text of `recordPayment` are dropped.
- `Lifecycle.UpgradePackage` takes the upgrade charge amount as a parameter, because the billing policy behind `createUpgradeCharge` is not part of this model.
- The repository queries `findByUserIdAndStatusInOrderByStartTimeAsc` and `findByStatusAndExpiryTimeBefore` are parameters. They are constrained to return exactly the matching subscriptions, each once. Subscriptions with no start time are placed anywhere in the reconciliation listing.
- The balance re-check inside the reconciliation loop is modelled as written. Activation books no charge, so a balance at or below zero stays there and the check never stops the walk: every listed subscription is activated, not only as many as the payment would pay for.
- The SMS is guarded only in `activate`. In `upgradePackage`, `suspendExpiredUnpaid` and `reactivateExpired`, a gateway failure surfaces to the caller as an error, after the device call and the save have taken effect; the model does the same.
- `getUsersWithService` and `getUserDetails` are left out because they are read-only DTO projections.
- The wallet endpoints, STK push (`PayHeroService`) and `SecurityConfig` are left out, because they are outside the subscription core.
- `UserSubscriptionService.activateSubscription` and `PaymentTransactionService.logTransaction` are not part of this model. The callback records them as calls, and whether activation returns normally is a parameter.
- PaymentCallback.HandleCallback: the logged amount is the text that parsed, not the `double` it parses to.
- Lifecycle.HandlePayment: one `smsUp` flag answers for every SMS of the walk, so a gateway that refuses only the k-th message cannot be stated. In the Java service, reactivating an EXPIRED subscription then throws after the earlier subscriptions were settled and after its own re-enable and save. With the flag down, the model's walk always stops at the first EXPIRED subscription in the listing, never at a later one.
- Lifecycle.SettleInOrder: the same single SMS answer for every subscription of the walk.
- Lifecycle.SuspendExpiredUnpaid: the same single SMS answer. In the Java service, a refusal of only the k-th message throws after k − 1 suspensions plus the k-th disable and save.
- Lifecycle.SuspendInOrder: the same single SMS answer for every subscription of the loop. Its own contract speaks of the store only. The calls of a loop that goes through, and where a failing loop stopped, are the contracts of Lifecycle.SuspendInOrderInListingOrder and Lifecycle.SuspendInOrderStopsInOrder. The router side is the contract of Lifecycle.SuspendInOrderEffects.
- RouterTable.CreateUser: `/ppp/secret/add` always appends a row, even when a secret with that name already exists. How the router answers a duplicate name is not visible in the source; RouterOS itself refuses one, and `createPppoeUser` would then throw. LifecycleProofs.ReactivationDuplicatesSecret and LifecycleProofs.PaymentThatSettlesActivatesAll rest on the appending behaviour, so on a router that refuses duplicates a returning customer's second PENDING or PAID subscription would fail to activate instead.
- Lifecycle.CreatePending: the subscription charge is taken to be the package price. `createSubscriptionCharge` belongs to the billing service, which is not part of this model.
- Lifecycle.CreateByAdmin: the same assumption about the charge amount, for Lifecycle.CreateByAdminCorrected too.
- PaymentCallback.Extract: inherits the two gaps below. An amount in hexadecimal floating-point form, or a result code written with non-ASCII digits, is refused by the model but accepted by Java.
- JavaText.IsJavaDouble: hexadecimal floating-point literals (`0x1p3`) are not recognised, so the model rejects some amounts Java accepts.
- JavaText.ParseInt: non-ASCII Unicode digits, which `Character.digit` also accepts, are not recognised.
- JavaText.SuccessSpellings: case mapping is modelled for ASCII letters plus the four non-ASCII characters whose case maps onto an ASCII letter. That is exact for comparison with an ASCII word such as "Success".
- Calendar arithmetic: `plusMonths(1)` is the clock reading's `monthLater`, known only to be later than `now`.

## Findings

| source | as written | input that shows it | evidently intended | confidence | as-written member | corrected member |
|---|---|---|---|---|---|---|
| src/main/java/com/neuroisp/service/PppoeSubscriptionService.java:108-122 | with `activateNow`, the subscription is saved ACTIVE before `activate` runs; if the router call then fails, the saved record is ACTIVE with no start and no expiry | admin creation with `activateNow = true` for a user whose router cannot be reached | the record stays PENDING until the device call succeeds, so that `activateLater` can retry it | not executed | Lifecycle.CreateByAdmin, LifecycleProofs.CreateByAdminStrandsActiveSubscription | Lifecycle.CreateByAdminCorrected, LifecycleProofs.CreateByAdminCorrectedIsRetryable |

=== FILE: java_text.dfy ===
/**
  The few pieces of the Java library the payment callback leans on:
  `Integer.parseInt`, the syntax `Double.parseDouble` accepts, and
  `String.equalsIgnoreCase`.
 */
module JavaText {
  import opened Outcomes

  const MinInt: int := -0x8000_0000
  const MaxInt: int := 0x7FFF_FFFF

  predicate IsDigit(c: char) {
    '0' <= c <= '9'
  }

  predicate AllDigits(s: string) {
    forall i :: 0 <= i < |s| ==> IsDigit(s[i])
  }

  function DigitValue(c: char): nat
    requires IsDigit(c)
  {
    (c as int) - ('0' as int)
  }

  function DigitChar(d: nat): (c: char)
    requires d < 10
    ensures IsDigit(c) && DigitValue(c) == d
  {
    (('0' as int) + d) as char
  }

  /** The value of a run of decimal digits, most significant first. */
  function DigitsValue(s: string): nat
    requires AllDigits(s)
    decreases |s|
  {
    if |s| == 0 then 0
    else DigitsValue(s[..|s| - 1]) * 10 + DigitValue(s[|s| - 1])
  }

  /** `s` without its leading sign, if it has one. */
  function Unsigned(s: string): string {
    if |s| > 0 && (s[0] == '-' || s[0] == '+') then s[1..] else s
  }

  /** `Integer.parseInt(s)`: an optional sign, at least one digit, and a
      value that fits in 32 bits; anything else is a NumberFormatException. */
  function ParseInt(s: string): (r: Option<int>)
    ensures r.Some? ==> MinInt <= r.value <= MaxInt
    ensures r.Some? ==> |s| > 0 && (IsDigit(s[0]) || s[0] == '-' || s[0] == '+')
  {
    if |s| == 0 then None
    else
      var digits := Unsigned(s);
      if |digits| == 0 || !AllDigits(digits) then None
      else
        var v: int := if s[0] == '-' then 0 - DigitsValue(digits) else DigitsValue(digits);
        if MinInt <= v <= MaxInt then Some(v) else None
  }

  /** Decimal digits of a natural number, no leading zeros. */
  function NatToDigits(n: nat): string
    decreases n
  {
    if n < 10 then [DigitChar(n)] else NatToDigits(n / 10) + [DigitChar(n % 10)]
  }

  /** `Integer.toString(n)`. */
  function IntToString(n: int): string {
    if n < 0 then "-" + NatToDigits(-n) else NatToDigits(n)
  }

  lemma {:induction false} NatToDigitsValue(n: nat)
    ensures |NatToDigits(n)| > 0 && AllDigits(NatToDigits(n))
    ensures DigitsValue(NatToDigits(n)) == n
    decreases n
  {
    if n >= 10 {
      NatToDigitsValue(n / 10);
      var s := NatToDigits(n);
      assert s[..|s| - 1] == NatToDigits(n / 10);
    }
  }

  /** Every 32-bit integer, printed by `Integer.toString`, parses back. */
  lemma ParseIntRoundTrip(n: int)
    requires MinInt <= n <= MaxInt
    ensures ParseInt(IntToString(n)) == Some(n)
  {
    if n < 0 {
      var d := NatToDigits(-n);
      NatToDigitsValue(-n);
      assert Unsigned("-" + d) == d;
    } else {
      var d := NatToDigits(n);
      NatToDigitsValue(n);
      assert IsDigit(d[0]) && Unsigned(d) == d;
    }
  }

  /** Digits denote zero exactly when every one of them is '0'. */
  lemma {:induction false} DigitsValueZero(s: string)
    requires AllDigits(s)
    ensures DigitsValue(s) == 0 <==> forall i :: 0 <= i < |s| ==> s[i] == '0'
    decreases |s|
  {
    if |s| > 0 {
      var p := s[..|s| - 1];
      DigitsValueZero(p);
      assert forall i :: 0 <= i < |p| ==> p[i] == s[i];
    }
  }

  /** An optional sign followed by one or more zeros. */
  predicate IsZeroNumeral(s: string) {
    |Unsigned(s)| > 0 && forall i :: 0 <= i < |Unsigned(s)| ==> Unsigned(s)[i] == '0'
  }

  /** `Integer.parseInt(s) == 0` holds for exactly the zero numerals. */
  lemma ParseIntZero(s: string)
    ensures ParseInt(s) == Some(0) <==> IsZeroNumeral(s)
  {
    if |s| > 0 {
      var digits := Unsigned(s);
      if AllDigits(digits) {
        DigitsValueZero(digits);
      } else {
        var i :| 0 <= i < |digits| && !IsDigit(digits[i]);
        assert digits[i] != '0';
      }
    }
  }

  // ---------------------------------------------------------------------
  // Double.parseDouble: syntax only
  // ---------------------------------------------------------------------

  /** `String.trim()`: drop leading and trailing characters up to U+0020. */
  function Trim(s: string): (t: string)
    ensures |t| > 0 ==> t[0] > ' ' && t[|t| - 1] > ' '
    ensures |t| <= |s|
    decreases |s|
  {
    if |s| > 0 && s[0] <= ' ' then Trim(s[1..])
    else if |s| > 0 && s[|s| - 1] <= ' ' then Trim(s[..|s| - 1])
    else s
  }

  /** Index just past the run of digits that starts at `i`. */
  function DigitRunEnd(s: string, i: nat): (j: nat)
    requires i <= |s|
    ensures i <= j <= |s|
    ensures forall k :: i <= k < j ==> IsDigit(s[k])
    ensures j < |s| ==> !IsDigit(s[j])
    decreases |s| - i
  {
    if i < |s| && IsDigit(s[i]) then DigitRunEnd(s, i + 1) else i
  }

  /** `e`/`E`, an optional sign, and at least one digit. */
  predicate IsExponent(e: string) {
    && |e| >= 2
    && (e[0] == 'e' || e[0] == 'E')
    && var d := if e[1] == '+' || e[1] == '-' then e[2..] else e[1..];
       |d| > 0 && AllDigits(d)
  }

  /** Digits, an optional fraction, at least one digit in all, and an
      optional exponent. */
  predicate IsDecimalCore(c: string) {
    var a := DigitRunEnd(c, 0);
    var hasPoint := a < |c| && c[a] == '.';
    var b := if hasPoint then DigitRunEnd(c, a + 1) else a;
    var fraction := if hasPoint then b - (a + 1) else 0;
    a + fraction > 0 && (b == |c| || IsExponent(c[b..]))
  }

  /** A decimal literal with an optional `f`/`F`/`d`/`D` suffix. */
  predicate IsDecimalLiteral(b: string) {
    var core := if |b| > 0 && b[|b| - 1] in "fFdD" then b[..|b| - 1] else b;
    IsDecimalCore(core)
  }

  /** The trimmed text without its leading sign. */
  function DoubleBody(s: string): string {
    var t := Trim(s);
    if |t| > 0 && (t[0] == '+' || t[0] == '-') then t[1..] else t
  }

  /** The strings `Double.parseDouble` accepts (decimal forms); a blank
      string is refused. */
  predicate IsJavaDouble(s: string): (r: bool)
    ensures r ==> |Trim(s)| > 0
  {
    var body := DoubleBody(s);
    body == "NaN" || body == "Infinity" || IsDecimalLiteral(body)
  }

  /** `t` sits at offset `i` of `s`, and everything around it is a
      character up to U+0020. */
  predicate TrimmedAt(s: string, t: string, i: int) {
    && 0 <= i <= |s| - |t|
    && t == s[i..i + |t|]
    && (forall k :: 0 <= k < i ==> s[k] <= ' ')
    && (forall k :: i + |t| <= k < |s| ==> s[k] <= ' ')
  }

  /** Putting back a leading blank shifts the kept text by one. */
  lemma TrimmedAtConsBlank(s: string, t: string, i: int)
    requires |s| > 0 && s[0] <= ' ' && TrimmedAt(s[1..], t, i)
    ensures TrimmedAt(s, t, i + 1)
  {
    var q := s[1..];
    assert t == s[i + 1..i + 1 + |t|];
    forall k | 0 <= k < i + 1 ensures s[k] <= ' ' {
      if k > 0 { assert s[k] == q[k - 1]; }
    }
    forall k | i + 1 + |t| <= k < |s| ensures s[k] <= ' ' {
      assert s[k] == q[k - 1];
    }
  }

  /** Putting back a trailing blank leaves the kept text where it is. */
  lemma TrimmedAtSnocBlank(s: string, t: string, i: int)
    requires |s| > 0 && s[|s| - 1] <= ' ' && TrimmedAt(s[..|s| - 1], t, i)
    ensures TrimmedAt(s, t, i)
  {
    var p := s[..|s| - 1];
    assert t == s[i..i + |t|];
    forall k | 0 <= k < i ensures s[k] <= ' ' {
      assert s[k] == p[k];
    }
    forall k | i + |t| <= k < |s| ensures s[k] <= ' ' {
      if k < |p| { assert s[k] == p[k]; }
    }
  }

  /** `trim()` removes a prefix and a suffix made only of characters up to
      U+0020 and keeps the rest in place. */
  lemma {:induction false} TrimInfix(s: string)
    ensures exists i :: TrimmedAt(s, Trim(s), i)
    decreases |s|
  {
    var t := Trim(s);
    if |s| > 0 && s[0] <= ' ' {
      TrimInfix(s[1..]);
      var i :| TrimmedAt(s[1..], t, i);
      TrimmedAtConsBlank(s, t, i);
    } else if |s| > 0 && s[|s| - 1] <= ' ' {
      TrimInfix(s[..|s| - 1]);
      var i :| TrimmedAt(s[..|s| - 1], t, i);
      TrimmedAtSnocBlank(s, t, i);
    } else {
      assert t == s[0..|s|];
      assert TrimmedAt(s, t, 0);
    }
  }

  /** A decimal core holds a digit at its first position or right after
      its point. */
  lemma DecimalCoreHasDigit(c: string)
    requires IsDecimalCore(c)
    ensures exists d :: 0 <= d < |c| && IsDigit(c[d])
  {
    var a := DigitRunEnd(c, 0);
    if a > 0 {
      assert IsDigit(c[0]);
    } else {
      assert IsDigit(c[1]);
    }
  }

  /** A decimal literal, suffix or not, holds a digit. */
  lemma LiteralHasDigit(b: string)
    requires IsDecimalLiteral(b)
    ensures exists d :: 0 <= d < |b| && IsDigit(b[d])
  {
    var core := if |b| > 0 && b[|b| - 1] in "fFdD" then b[..|b| - 1] else b;
    DecimalCoreHasDigit(core);
    var d :| 0 <= d < |core| && IsDigit(core[d]);
    assert b[d] == core[d];
  }

  /** Each character of the body sits at a position of the input. */
  lemma BodyCharInInput(s: string, d: int)
    requires 0 <= d < |DoubleBody(s)|
    ensures exists i :: 0 <= i < |s| && s[i] == DoubleBody(s)[d]
  {
    var t := Trim(s);
    var off := if |t| > 0 && (t[0] == '+' || t[0] == '-') then 1 else 0;
    assert DoubleBody(s)[d] == t[off + d];
    TrimInfix(s);
    var i :| TrimmedAt(s, t, i);
    assert s[i + off + d] == t[off + d];
  }

  /** An accepted amount other than NaN and Infinity contains a digit. */
  lemma AcceptedAmountHasDigit(s: string)
    requires IsJavaDouble(s) && DoubleBody(s) != "NaN" && DoubleBody(s) != "Infinity"
    ensures exists i :: 0 <= i < |s| && IsDigit(s[i])
  {
    var body := DoubleBody(s);
    LiteralHasDigit(body);
    var d :| 0 <= d < |body| && IsDigit(body[d]);
    BodyCharInInput(s, d);
  }

  /** A run of digits reaching the end is scanned to the end. */
  lemma {:induction false} AllDigitsRun(s: string, i: nat)
    requires i <= |s| && forall j :: i <= j < |s| ==> IsDigit(s[j])
    ensures DigitRunEnd(s, i) == |s|
    decreases |s| - i
  {
    if i < |s| {
      AllDigitsRun(s, i + 1);
    }
  }

  /** Every whole amount printed in decimal is accepted as a double. */
  lemma IntegerTextIsDouble(n: int)
    ensures IsJavaDouble(IntToString(n))
  {
    var d := NatToDigits(if n < 0 then -n else n);
    NatToDigitsValue(if n < 0 then -n else n);
    var t := IntToString(n);
    assert t[0] > ' ' && t[|t| - 1] > ' ';
    assert Trim(t) == t;
    assert DoubleBody(t) == d;
    AllDigitsRun(d, 0);
    assert d[|d| - 1] !in "fFdD";
  }

  /** A plain amount with a fraction is accepted. */
  lemma FractionalAmountAccepted()
    ensures IsJavaDouble("12.50")
  {
    assert Trim("12.50") == "12.50";
    assert DigitRunEnd("12.50", 0) == 2;
    assert DigitRunEnd("12.50", 3) == 5;
  }

  /** A lone point and a dangling exponent are refused. */
  lemma MalformedAmountsRefused()
    ensures !IsJavaDouble(".") && !IsJavaDouble("1e")
  {
    assert Trim(".") == "." && DoubleBody(".") == ".";
    assert DigitRunEnd(".", 0) == 0 && DigitRunEnd(".", 1) == 1;
    assert Trim("1e") == "1e" && DoubleBody("1e") == "1e";
    assert DigitRunEnd("1e", 0) == 1 && !IsExponent("1e"[1..]);
  }

  // ---------------------------------------------------------------------
  // String.equalsIgnoreCase
  // ---------------------------------------------------------------------

  /** `Character.toUpperCase` on ASCII letters and on the two non-ASCII
      characters whose upper case is an ASCII letter (long s, dotless i);
      every other character is kept, which is exact whenever the result is
      compared with an ASCII letter. */
  function JavaUpper(c: char): char {
    if 'a' <= c <= 'z' then ((c as int) - 32) as char
    else if c == '\U{017F}' then 'S'
    else if c == '\U{0131}' then 'I'
    else c
  }

  /** `Character.toLowerCase` on ASCII letters and on the two non-ASCII
      characters whose lower case is an ASCII letter (dotted capital I,
      Kelvin sign); otherwise as for `JavaUpper`. */
  function JavaLower(c: char): char {
    if 'A' <= c <= 'Z' then ((c as int) + 32) as char
    else if c == '\U{0130}' then 'i'
    else if c == '\U{212A}' then 'k'
    else c
  }

  /** The per-character test of `regionMatches(ignoreCase = true, ...)`. */
  predicate CharsEqualIgnoreCase(a: char, b: char) {
    a == b || JavaUpper(a) == JavaUpper(b) || JavaLower(JavaUpper(a)) == JavaLower(JavaUpper(b))
  }

  /** `a.equalsIgnoreCase(b)` for non-null `b`: same length, and the
      characters agree pairwise ignoring case. */
  predicate EqualsIgnoreCase(a: string, b: string): (r: bool)
    ensures a == b ==> r
    ensures r ==> |a| == |b|
  {
    |a| == |b| && forall i :: 0 <= i < |a| ==> CharsEqualIgnoreCase(a[i], b[i])
  }

  /** The comparison does not depend on which string it is called on. */
  lemma EqualsIgnoreCaseSymmetric(a: string, b: string)
    ensures EqualsIgnoreCase(a, b) <==> EqualsIgnoreCase(b, a)
  {
  }

  /** The spellings of an ASCII letter `equalsIgnoreCase` accepts. */
  function Spellings(c: char): set<char> {
    if c == 's' || c == 'S' then {'s', 'S', '\U{017F}'}
    else if 'a' <= c <= 'z' then {c, JavaUpper(c)}
    else if 'A' <= c <= 'Z' then {c, JavaLower(c)}
    else {c}
  }

  /** The status check of the payment callback, spelled out: seven
      characters, each an upper- or lower-case letter of "success", where an
      `s` may also be the long s. */
  lemma SuccessSpellings(status: string)
    ensures EqualsIgnoreCase("Success", status) <==>
      |status| == 7 && forall i :: 0 <= i < 7 ==> status[i] in Spellings("Success"[i])
  {
    var w := "Success";
    forall i, c | 0 <= i < 7
      ensures CharsEqualIgnoreCase(w[i], c) <==> c in Spellings(w[i])
    {
    }
  }
}

=== FILE: ledger.dfy ===
/**
  The billing ledger the subscription engine charges and credits. Only its
  observable contract is modelled: an append-only list of entries from which
  a subscriber's balance is derived (charges minus payments, so a positive
  balance means the subscriber still owes money).
 */
module Ledger {

  type UserId = string

  /** A charge raised against a subscription, or a payment received. Amounts
      are whole currency units. */
  datatype Entry =
    | Charge(user: UserId, amount: int, subscription: string)
    | Payment(user: UserId, amount: int, reference: string)

  /** What one entry contributes to `u`'s balance. */
  function Delta(e: Entry, u: UserId): int {
    if e.user != u then 0
    else if e.Charge? then e.amount
    else -e.amount
  }

  /** Balance recomputed from the whole ledger on every query. */
  function Balance(entries: seq<Entry>, u: UserId): int
    decreases |entries|
  {
    if |entries| == 0 then 0
    else Balance(entries[..|entries| - 1], u) + Delta(entries[|entries| - 1], u)
  }

  /** Appending one entry moves only its own subscriber's balance, by its
      signed amount. */
  lemma BalanceAppend(entries: seq<Entry>, e: Entry, u: UserId)
    ensures Balance(entries + [e], u) == Balance(entries, u) + Delta(e, u)
    ensures e.user != u ==> Balance(entries + [e], u) == Balance(entries, u)
    ensures e.user == u && e.Charge? ==> Balance(entries + [e], u) == Balance(entries, u) + e.amount
    ensures e.user == u && e.Payment? ==> Balance(entries + [e], u) == Balance(entries, u) - e.amount
  {
    assert (entries + [e])[..|entries|] == entries;
  }

  /** The balance of two ledgers laid end to end is the sum of their
      balances. */
  lemma {:induction false} BalanceConcat(a: seq<Entry>, b: seq<Entry>, u: UserId)
    ensures Balance(a + b, u) == Balance(a, u) + Balance(b, u)
    decreases |b|
  {
    if |b| == 0 {
      assert a + b == a;
    } else {
      var b' := b[..|b| - 1];
      var e := b[|b| - 1];
      assert a + b == (a + b') + [e];
      assert b == b' + [e];
      BalanceAppend(a + b', e, u);
      BalanceAppend(b', e, u);
      BalanceConcat(a, b', u);
    }
  }

  /** The balance does not depend on the order entries were appended in:
      two ledgers holding the same entries have the same balance. */
  lemma {:induction false} BalanceOrderIndependent(a: seq<Entry>, b: seq<Entry>, u: UserId)
    requires multiset(a) == multiset(b)
    ensures Balance(a, u) == Balance(b, u)
    decreases |a|
  {
    if |a| == 0 {
      assert |b| == |multiset(b)| == 0;
    } else {
      var e := a[|a| - 1];
      var a' := a[..|a| - 1];
      assert a == a' + [e];
      assert e in multiset(b);
      var k :| 0 <= k < |b| && b[k] == e;
      var b' := b[..k] + b[k + 1..];
      assert b == b[..k] + [e] + b[k + 1..];
      assert multiset(b) == multiset(b[..k]) + multiset{e} + multiset(b[k + 1..]);
      assert multiset(b') == multiset(b[..k]) + multiset(b[k + 1..]);
      assert multiset(a) == multiset(a') + multiset{e};
      assert multiset(a') == multiset(a) - multiset{e};
      assert multiset(b') == multiset(b) - multiset{e};
      BalanceOrderIndependent(a', b', u);
      BalanceAppend(a', e, u);
      BalanceConcat(b[..k] + [e], b[k + 1..], u);
      BalanceAppend(b[..k], e, u);
      BalanceConcat(b[..k], b[k + 1..], u);
    }
  }
}

=== FILE: lifecycle.dfy ===
/**
  The PPPoE subscription lifecycle engine. A subscription moves through
  PENDING, PAID, ACTIVE and EXPIRED; every operation is a pure function from
  the engine's world (subscription store, package catalogue, ledger, router
  tables) to a `Run`: the world after the operation, the ordered trace of
  collaborator calls it made, and either the returned value or the error
  it threw.

  On an error the returned world is the one the statements before the throw
  left behind: database writes already saved stay saved, calls already made
  stay made.
 */
module Lifecycle {
  import opened Outcomes
  import RouterTable
  import Ledger

  type SubId = string
  type PackageId = string
  type RouterId = string
  type Time = int

  /** One reading of the clock per operation: `now`, and the instant one
      calendar month later (`now.plusMonths(1)`), which is strictly later. */
  datatype ClockReading = ClockReading(now: Time, monthLater: Time)
  type Clock = c: ClockReading | c.now < c.monthLater witness ClockReading(0, 1)

  /** A PPPoE customer: ledger identity, router credential, phone, and the
      router the customer is attached to. */
  datatype User = User(id: Ledger.UserId, username: string, password: string, phone: string, router: RouterId)

  /** Catalogue entry: price in whole currency units and the router profile
      that carries its speed limits. */
  datatype Package = Package(id: PackageId, name: string, price: int, profile: string)

  datatype Status = Pending | Paid | Active | Expired

  datatype Subscription = Subscription(
    user: User,
    pkg: Package,
    router: RouterId,
    status: Status,
    paymentRef: Option<string>,
    start: Option<Time>,
    expiry: Option<Time>)

  /** Everything the engine reads and writes. */
  datatype State = State(
    subs: map<SubId, Subscription>,
    packages: map<PackageId, Package>,
    ledger: seq<Ledger.Entry>,
    routers: map<RouterId, RouterTable.Router>)

  /** A collaborator call that took effect, in the order it was made.
      `DeviceCommand` is a command the router accepted: a refused command
      ends the operation with its error and leaves no entry. `Notified`
      records every SMS attempt and whether the gateway accepted it. */
  datatype Effect =
    | Saved(id: SubId)
    | Booked(entry: Ledger.Entry)
    | DeviceCommand(router: RouterId, cmd: RouterTable.Command)
    | Notified(phone: string, delivered: bool)

  datatype Error =
    | PackageNotFound
    | SubscriptionNotFound
    | CannotActivate
    | OnlyActiveUpgradable
    | ExpiryInPast
    | DeviceFailure(cause: RouterTable.DeviceError)
    | NotificationFailure

  datatype Run<T> = Run(st: State, trace: seq<Effect>, outcome: Result<T, Error>)

  // ---------------------------------------------------------------------
  // Vocabulary for contracts
  // ---------------------------------------------------------------------

  /** A subscription that has been ACTIVE carries both of its times. */
  predicate Timed(s: Subscription) {
    (s.status == Active || s.status == Expired) ==> s.start.Some? && s.expiry.Some?
  }

  predicate WellFormed(st: State) {
    forall k :: k in st.subs ==> Timed(st.subs[k])
  }

  /** `after` is `before` (re)activated at `clock`: ACTIVE, a period starting
      now and ending one month later, nothing else changed. */
  predicate Activated(before: Subscription, after: Subscription, clock: Clock) {
    after == before.(status := Active, start := Some(clock.now), expiry := Some(clock.monthLater))
  }

  predicate NoDeviceCalls(trace: seq<Effect>) {
    forall i :: 0 <= i < |trace| ==> !trace[i].DeviceCommand?
  }

  /** The stores agree on every subscription except `id`. */
  predicate OthersUnchanged(before: map<SubId, Subscription>, after: map<SubId, Subscription>, id: SubId) {
    forall k :: k in before && k != id ==> k in after && after[k] == before[k]
  }

  /** The routers other than `rid` are untouched, and none appears or
      disappears. */
  predicate RoutersFrame(before: map<RouterId, RouterTable.Router>, after: map<RouterId, RouterTable.Router>, rid: RouterId) {
    && before.Keys == after.Keys
    && forall x :: x in before && x != rid ==> after[x] == before[x]
  }

  /** The router accepted `cmd` on `rid`, and subscription `id` was saved
      right after. */
  predicate CommandThenSave(trace: seq<Effect>, rid: RouterId, cmd: RouterTable.Command, id: SubId) {
    exists j :: 0 <= j < |trace| - 1 && trace[j] == DeviceCommand(rid, cmd) && trace[j + 1] == Saved(id)
  }

  /** A command followed by its save stays visible when the trace grows at
      either end. */
  lemma CommandThenSaveInConcat(a: seq<Effect>, b: seq<Effect>)
    ensures forall rid, cmd, id :: CommandThenSave(a, rid, cmd, id) ==> CommandThenSave(a + b, rid, cmd, id)
    ensures forall rid, cmd, id :: CommandThenSave(b, rid, cmd, id) ==> CommandThenSave(a + b, rid, cmd, id)
  {
    forall rid, cmd, id | CommandThenSave(a, rid, cmd, id)
      ensures CommandThenSave(a + b, rid, cmd, id)
    {
      var j :| 0 <= j < |a| - 1 && a[j] == DeviceCommand(rid, cmd) && a[j + 1] == Saved(id);
      assert (a + b)[j] == a[j] && (a + b)[j + 1] == a[j + 1];
    }
    forall rid, cmd, id | CommandThenSave(b, rid, cmd, id)
      ensures CommandThenSave(a + b, rid, cmd, id)
    {
      var j :| 0 <= j < |b| - 1 && b[j] == DeviceCommand(rid, cmd) && b[j + 1] == Saved(id);
      assert (a + b)[|a| + j] == b[j] && (a + b)[|a| + j + 1] == b[j + 1];
    }
  }

  /** The router tables that the device commands of `trace` leave behind
      when applied in order; `None` when one of them would be refused or
      names a router that does not exist. */
  function Replay(routers: map<RouterId, RouterTable.Router>, trace: seq<Effect>): Option<map<RouterId, RouterTable.Router>>
    decreases |trace|
  {
    if |trace| == 0 then Some(routers)
    else if trace[0].DeviceCommand? then
      var rid := trace[0].router;
      if rid in routers && RouterTable.Apply(routers[rid], trace[0].cmd).Success? then
        Replay(routers[rid := RouterTable.Apply(routers[rid], trace[0].cmd).value], trace[1..])
      else None
    else Replay(routers, trace[1..])
  }

  /** Replaying two traces one after the other is replaying their
      concatenation. */
  lemma {:induction false} ReplayConcat(routers: map<RouterId, RouterTable.Router>, a: seq<Effect>, b: seq<Effect>)
    ensures Replay(routers, a + b) == if Replay(routers, a).Some? then Replay(Replay(routers, a).value, b) else None
    decreases |a|
  {
    if |a| > 0 {
      assert (a + b)[0] == a[0] && (a + b)[1..] == a[1..] + b;
      if a[0].DeviceCommand? {
        var rid := a[0].router;
        if rid in routers && RouterTable.Apply(routers[rid], a[0].cmd).Success? {
          ReplayConcat(routers[rid := RouterTable.Apply(routers[rid], a[0].cmd).value], a[1..], b);
        }
      } else {
        ReplayConcat(routers, a[1..], b);
      }
    } else {
      assert a + b == b;
    }
  }

  /** One accepted command followed by a save and an SMS: the command's
      router is the only table that changes. */
  lemma ReplayCommandSaveNotify(routers: map<RouterId, RouterTable.Router>, rid: RouterId, cmd: RouterTable.Command, id: SubId, phone: string, delivered: bool)
    ensures rid in routers && RouterTable.Apply(routers[rid], cmd).Success? ==>
      Replay(routers, [DeviceCommand(rid, cmd), Saved(id), Notified(phone, delivered)])
        == Some(routers[rid := RouterTable.Apply(routers[rid], cmd).value])
  {
    if rid !in routers || RouterTable.Apply(routers[rid], cmd).Failure? { return; }
    var t := [DeviceCommand(rid, cmd), Saved(id), Notified(phone, delivered)];
    var m := routers[rid := RouterTable.Apply(routers[rid], cmd).value];
    assert t[1..] == [Saved(id), Notified(phone, delivered)];
    assert t[1..][1..] == [Notified(phone, delivered)];
    assert Replay(m, [Notified(phone, delivered)]) == Replay(m, []);
  }

  /** The record both creation paths save first: PENDING on the user's
      router, no receipt, no period. */
  function NewPending(user: User, pkg: Package): (s: Subscription)
    ensures s.status == Pending && s.user == user && s.pkg == pkg && s.router == user.router
    ensures s.paymentRef.None? && s.start.None? && s.expiry.None?
  {
    Subscription(user, pkg, user.router, Pending, None, None, None)
  }

  /** Issue one router command; an unknown router cannot be connected to. */
  function Device(st: State, rid: RouterId, cmd: RouterTable.Command): (r: Result<State, RouterTable.DeviceError>)
    ensures r.Success? <==> rid in st.routers && RouterTable.Apply(st.routers[rid], cmd).Success?
    ensures r.Success? ==> r.value == st.(routers := st.routers[rid := RouterTable.Apply(st.routers[rid], cmd).value])
  {
    if rid !in st.routers then Failure(RouterTable.UnreachableError(cmd))
    else match RouterTable.Apply(st.routers[rid], cmd)
      case Failure(e) => Failure(e)
      case Success(rt) => Success(st.(routers := st.routers[rid := rt]))
  }

  function AddSecretFor(s: Subscription): RouterTable.Command {
    RouterTable.AddSecret(s.user.username, s.user.password, s.pkg.profile)
  }

  /** The device call of `s`'s router succeeds. */
  predicate RouterAccepts(st: State, s: Subscription, cmd: RouterTable.Command) {
    s.router in st.routers && RouterTable.Apply(st.routers[s.router], cmd).Success?
  }

  // ---------------------------------------------------------------------
  // Operations
  // ---------------------------------------------------------------------

  /** `createPending`: the user picks a package. The subscription is saved
      PENDING on the user's router, then exactly one charge is booked. */
  function CreatePending(st: State, user: User, pkgId: PackageId, id: SubId): (r: Run<Subscription>)
    requires id !in st.subs
    ensures r.outcome.Failure? <==> pkgId !in st.packages
    ensures r.outcome.Failure? ==> r.st == st && r.trace == [] && r.outcome.error == PackageNotFound
    ensures r.outcome.Success? ==>
      && var s := r.outcome.value;
      && s.status == Pending && s.user == user && s.router == user.router
      && s.pkg == st.packages[pkgId] && s.paymentRef.None? && s.start.None? && s.expiry.None?
      && r.st.subs == st.subs[id := s]
      && r.st.ledger == st.ledger + [Ledger.Charge(user.id, s.pkg.price, id)]
      && Ledger.Balance(r.st.ledger, user.id) == Ledger.Balance(st.ledger, user.id) + s.pkg.price
      && r.trace == [Saved(id), Booked(Ledger.Charge(user.id, s.pkg.price, id))]
      && r.st.routers == st.routers && r.st.packages == st.packages
    ensures WellFormed(st) ==> WellFormed(r.st)
  {
    if pkgId !in st.packages then Run(st, [], Failure(PackageNotFound))
    else
      var pkg := st.packages[pkgId];
      var s := NewPending(user, pkg);
      var charge := Ledger.Charge(user.id, pkg.price, id);
      Ledger.BalanceAppend(st.ledger, charge, user.id);
      Run(st.(subs := st.subs[id := s], ledger := st.ledger + [charge]),
          [Saved(id), Booked(charge)],
          Success(s))
  }

  /** `activate`: create the PPPoE secret first; only then become ACTIVE for
      one month from now and save; the SMS is best effort. */
  function Activate(st: State, id: SubId, clock: Clock, smsUp: bool): (r: Run<Subscription>)
    requires id in st.subs
    ensures r.outcome.Success? <==> RouterAccepts(st, st.subs[id], AddSecretFor(st.subs[id]))
    ensures r.outcome.Failure? ==>
      r.st == st && r.trace == [] && r.outcome.error.DeviceFailure? && r.outcome.error.cause.CreateFailed?
    ensures r.outcome.Success? ==>
      && var s := st.subs[id];
      && Activated(s, r.outcome.value, clock)
      && r.outcome.value.expiry.value > r.outcome.value.start.value
      && r.st.subs == st.subs[id := r.outcome.value]
      && r.st.ledger == st.ledger && r.st.packages == st.packages
      && r.st.routers == st.routers[s.router := RouterTable.Apply(st.routers[s.router], AddSecretFor(s)).value]
      && r.trace == [DeviceCommand(s.router, AddSecretFor(s)), Saved(id), Notified(s.user.phone, smsUp)]
    ensures WellFormed(st) ==> WellFormed(r.st)
  {
    var s := st.subs[id];
    match Device(st, s.router, AddSecretFor(s))
    case Failure(e) => Run(st, [], Failure(DeviceFailure(e)))
    case Success(st1) =>
      var s' := s.(status := Active, start := Some(clock.now), expiry := Some(clock.monthLater));
      // the SMS outcome is caught and ignored
      Run(st1.(subs := st1.subs[id := s']),
          [DeviceCommand(s.router, AddSecretFor(s)), Saved(id), Notified(s.user.phone, smsUp)],
          Success(s'))
  }

  /** `markAsPaid`: record the receipt, then activate or just mark PAID. */
  function MarkAsPaid(st: State, id: SubId, receipt: string, autoActivate: bool, clock: Clock, smsUp: bool): (r: Run<Subscription>)
    ensures id !in st.subs ==> r == Run(st, [], Failure(SubscriptionNotFound))
    ensures r.outcome.Failure? ==> r.st == st && r.trace == []
    ensures id in st.subs && autoActivate && r.outcome.Failure? ==>
      r.outcome.error.DeviceFailure? && r.outcome.error.cause.CreateFailed?
    ensures id in st.subs && !autoActivate ==> r.outcome.Success?
    ensures r.outcome.Success? ==>
      && id in st.subs
      && r.outcome.value.paymentRef == Some(receipt)
      && r.st.subs == st.subs[id := r.outcome.value]
      && r.st.ledger == st.ledger
    ensures r.st.packages == st.packages
    ensures id in st.subs && autoActivate ==>
      && var s := st.subs[id];
      && (r.outcome.Success? <==> RouterAccepts(st, s, AddSecretFor(s)))
      && (r.outcome.Success? ==>
            && Activated(s.(paymentRef := Some(receipt)), r.outcome.value, clock)
            && r.st.routers == st.routers[s.router := RouterTable.Apply(st.routers[s.router], AddSecretFor(s)).value]
            && r.trace == [DeviceCommand(s.router, AddSecretFor(s)), Saved(id), Notified(s.user.phone, smsUp), Saved(id)])
    ensures r.outcome.Success? && !autoActivate ==>
      && r.outcome.value == st.subs[id].(status := Paid, paymentRef := Some(receipt))
      && r.st.routers == st.routers
      && r.trace == [Saved(id)]
      && NoDeviceCalls(r.trace)
    ensures WellFormed(st) ==> WellFormed(r.st)
  {
    if id !in st.subs then Run(st, [], Failure(SubscriptionNotFound))
    else
      var s := st.subs[id].(paymentRef := Some(receipt));
      if autoActivate then
        var a := Activate(st.(subs := st.subs[id := s]), id, clock, smsUp);
        if a.outcome.Failure? then Run(st, [], a.outcome)
        else Run(a.st, a.trace + [Saved(id)], a.outcome)
      else
        var s' := s.(status := Paid);
        Run(st.(subs := st.subs[id := s']), [Saved(id)], Success(s'))
  }

  /** `createByAdmin` as the source writes it: the record is saved with its
      final status up front (ACTIVE when `activateNow`), charged, and only
      then activated. A failing device call therefore leaves an ACTIVE
      subscription with no period behind. */
  function CreateByAdmin(st: State, user: User, pkg: Package, activateNow: bool, id: SubId, clock: Clock, smsUp: bool): (r: Run<Subscription>)
    requires id !in st.subs
    ensures var charge := Ledger.Charge(user.id, pkg.price, id);
      && r.st.ledger == st.ledger + [charge]
      && |r.trace| >= 2 && r.trace[..2] == [Saved(id), Booked(charge)]
    ensures id in r.st.subs && OthersUnchanged(st.subs, r.st.subs, id)
    ensures !activateNow ==>
      && r.outcome.Success?
      && r.outcome.value == NewPending(user, pkg)
      && r.st.subs[id] == r.outcome.value
    ensures activateNow && r.outcome.Success? ==>
      && Activated(NewPending(user, pkg), r.outcome.value, clock)
      && r.st.subs[id] == r.outcome.value
    ensures activateNow && r.outcome.Failure? ==>
      && r.st.subs[id].status == Active && r.st.subs[id].start.None? && r.st.subs[id].expiry.None?
      && r.st.routers == st.routers
      && r.trace == [Saved(id), Booked(Ledger.Charge(user.id, pkg.price, id))]
    ensures r.st.packages == st.packages
    ensures var s := NewPending(user, pkg);
      activateNow ==>
        && (r.outcome.Success? <==> RouterAccepts(st, s, AddSecretFor(s)))
        && (r.outcome.Success? ==>
              && r.st.routers == st.routers[user.router := RouterTable.Apply(st.routers[user.router], AddSecretFor(s)).value]
              && r.trace == [Saved(id), Booked(Ledger.Charge(user.id, pkg.price, id)),
                             DeviceCommand(user.router, AddSecretFor(s)), Saved(id), Notified(user.phone, smsUp)])
    ensures WellFormed(st) && r.outcome.Success? ==> WellFormed(r.st)
  {
    var s := Subscription(user, pkg, user.router, if activateNow then Active else Pending, None, None, None);
    var charge := Ledger.Charge(user.id, pkg.price, id);
    var st1 := st.(subs := st.subs[id := s], ledger := st.ledger + [charge]);
    if !activateNow then Run(st1, [Saved(id), Booked(charge)], Success(s))
    else
      var a := Activate(st1, id, clock, smsUp);
      if a.outcome.Failure? then Run(st1, [Saved(id), Booked(charge)], a.outcome)
      else Run(a.st, [Saved(id), Booked(charge)] + a.trace, a.outcome)
  }

  /** `createByAdmin` as evidently intended: the record stays PENDING until
      `activate` itself makes it ACTIVE, so a device failure leaves a
      PENDING (charged) subscription that `activateLater` can retry. */
  function CreateByAdminCorrected(st: State, user: User, pkg: Package, activateNow: bool, id: SubId, clock: Clock, smsUp: bool): (r: Run<Subscription>)
    requires id !in st.subs
    ensures var charge := Ledger.Charge(user.id, pkg.price, id);
      && r.st.ledger == st.ledger + [charge]
      && |r.trace| >= 2 && r.trace[..2] == [Saved(id), Booked(charge)]
    ensures id in r.st.subs && OthersUnchanged(st.subs, r.st.subs, id)
    ensures r.outcome.Failure? ==>
      && r.st.subs[id] == NewPending(user, pkg) && r.st.routers == st.routers
      && r.trace == [Saved(id), Booked(Ledger.Charge(user.id, pkg.price, id))]
    ensures r.outcome.Success? && activateNow ==>
      Activated(NewPending(user, pkg), r.outcome.value, clock)
    ensures r.st.packages == st.packages
    ensures !activateNow ==>
      && r.outcome == Success(NewPending(user, pkg))
      && r.st.subs[id] == NewPending(user, pkg)
      && r.st.routers == st.routers
      && r.trace == [Saved(id), Booked(Ledger.Charge(user.id, pkg.price, id))]
    ensures var s := NewPending(user, pkg);
      activateNow ==>
        && (r.outcome.Success? <==> RouterAccepts(st, s, AddSecretFor(s)))
        && (r.outcome.Success? ==>
              && r.st.routers == st.routers[user.router := RouterTable.Apply(st.routers[user.router], AddSecretFor(s)).value]
              && r.trace == [Saved(id), Booked(Ledger.Charge(user.id, pkg.price, id)),
                             DeviceCommand(user.router, AddSecretFor(s)), Saved(id), Notified(user.phone, smsUp)])
    ensures WellFormed(st) ==> WellFormed(r.st)
  {
    var s := NewPending(user, pkg);
    var charge := Ledger.Charge(user.id, pkg.price, id);
    var st1 := st.(subs := st.subs[id := s], ledger := st.ledger + [charge]);
    if !activateNow then Run(st1, [Saved(id), Booked(charge)], Success(s))
    else
      var a := Activate(st1, id, clock, smsUp);
      if a.outcome.Failure? then Run(st1, [Saved(id), Booked(charge)], a.outcome)
      else Run(a.st, [Saved(id), Booked(charge)] + a.trace, a.outcome)
  }

  /** `activateLater`: only a PENDING or PAID subscription may be activated. */
  function ActivateLater(st: State, id: SubId, clock: Clock, smsUp: bool): (r: Run<Subscription>)
    ensures id !in st.subs ==> r == Run(st, [], Failure(SubscriptionNotFound))
    ensures id in st.subs && st.subs[id].status != Pending && st.subs[id].status != Paid ==>
      r == Run(st, [], Failure(CannotActivate))
    ensures r.outcome.Failure? ==> r.st == st && r.trace == []
    ensures r.outcome.Success? ==>
      && id in st.subs
      && (st.subs[id].status == Pending || st.subs[id].status == Paid)
      && Activated(st.subs[id], r.outcome.value, clock)
      && r.st.subs == st.subs[id := r.outcome.value]
    ensures r.outcome.Success? <==>
      && id in st.subs
      && (st.subs[id].status == Pending || st.subs[id].status == Paid)
      && RouterAccepts(st, st.subs[id], AddSecretFor(st.subs[id]))
    ensures id in st.subs && (st.subs[id].status == Pending || st.subs[id].status == Paid) ==>
      r == Activate(st, id, clock, smsUp)
    ensures WellFormed(st) ==> WellFormed(r.st)
  {
    if id !in st.subs then Run(st, [], Failure(SubscriptionNotFound))
    else if st.subs[id].status != Pending && st.subs[id].status != Paid then Run(st, [], Failure(CannotActivate))
    else Activate(st, id, clock, smsUp)
  }

  /** `upgradePackage`: ACTIVE only; charge, then the router profile, and
      only after the router accepted it does the record adopt the new
      package. `upgradeCharge` is the amount the billing policy books. */
  function UpgradePackage(st: State, id: SubId, newPkgId: PackageId, upgradeCharge: int, smsUp: bool): (r: Run<Subscription>)
    ensures id !in st.subs ==> r == Run(st, [], Failure(SubscriptionNotFound))
    ensures id in st.subs && st.subs[id].status != Active ==> r == Run(st, [], Failure(OnlyActiveUpgradable))
    ensures id in st.subs && st.subs[id].status == Active && newPkgId !in st.packages ==>
      r == Run(st, [], Failure(PackageNotFound))
    ensures id in st.subs && st.subs[id].status == Active && newPkgId in st.packages ==>
      && var s := st.subs[id];
      && var charge := Ledger.Charge(s.user.id, upgradeCharge, id);
      && var cmd := RouterTable.SetProfile(s.user.username, s.user.password, st.packages[newPkgId].profile);
      && r.st.ledger == st.ledger + [charge]
      && |r.trace| > 0 && r.trace[0] == Booked(charge)
      && (!RouterAccepts(st, s, cmd) ==>
            && r.outcome.Failure? && r.outcome.error.DeviceFailure?
            && r.st.subs == st.subs && r.st.routers == st.routers && r.trace == [Booked(charge)])
      && (RouterAccepts(st, s, cmd) ==>
            && r.st.subs == st.subs[id := s.(pkg := st.packages[newPkgId])]
            && r.st.routers == st.routers[s.router := RouterTable.Apply(st.routers[s.router], cmd).value]
            && r.trace == [Booked(charge), DeviceCommand(s.router, cmd), Saved(id), Notified(s.user.phone, smsUp)]
            && (r.outcome.Success? <==> smsUp))
    ensures r.outcome.Success? ==> r.outcome.value.status == Active
    ensures r.st.packages == st.packages
    ensures WellFormed(st) ==> WellFormed(r.st)
  {
    if id !in st.subs then Run(st, [], Failure(SubscriptionNotFound))
    else if st.subs[id].status != Active then Run(st, [], Failure(OnlyActiveUpgradable))
    else if newPkgId !in st.packages then Run(st, [], Failure(PackageNotFound))
    else
      var s := st.subs[id];
      var newPkg := st.packages[newPkgId];
      var charge := Ledger.Charge(s.user.id, upgradeCharge, id);
      var st1 := st.(ledger := st.ledger + [charge]);
      var cmd := RouterTable.SetProfile(s.user.username, s.user.password, newPkg.profile);
      match Device(st1, s.router, cmd)
      case Failure(e) => Run(st1, [Booked(charge)], Failure(DeviceFailure(e)))
      case Success(st2) =>
        var s' := s.(pkg := newPkg);
        // the SMS is not guarded: a gateway failure surfaces to the caller
        Run(st2.(subs := st2.subs[id := s']),
            [Booked(charge), DeviceCommand(s.router, cmd), Saved(id), Notified(s.user.phone, smsUp)],
            if smsUp then Success(s') else Failure(NotificationFailure))
  }

  /** `reactivateExpired`: re-enable the existing secret, then a fresh
      period from now. The SMS is not guarded. */
  function ReactivateExpired(st: State, id: SubId, clock: Clock, smsUp: bool): (r: Run<Subscription>)
    requires id in st.subs
    ensures var s := st.subs[id];
      !RouterAccepts(st, s, RouterTable.EnableSecret(s.user.username)) ==>
        && r.st == st && r.trace == []
        && r.outcome.Failure? && r.outcome.error.DeviceFailure? && r.outcome.error.cause.EnableFailed?
    ensures var s := st.subs[id];
      RouterAccepts(st, s, RouterTable.EnableSecret(s.user.username)) ==>
        && id in r.st.subs
        && Activated(s, r.st.subs[id], clock)
        && r.st.subs == st.subs[id := r.st.subs[id]]
        && r.st.ledger == st.ledger && r.st.packages == st.packages
        && r.st.routers == st.routers[s.router := RouterTable.Apply(st.routers[s.router], RouterTable.EnableSecret(s.user.username)).value]
        && r.trace == [DeviceCommand(s.router, RouterTable.EnableSecret(s.user.username)), Saved(id), Notified(s.user.phone, smsUp)]
        && (r.outcome.Success? <==> smsUp)
        && (r.outcome.Success? ==> r.outcome.value == r.st.subs[id])
    ensures WellFormed(st) ==> WellFormed(r.st)
  {
    var s := st.subs[id];
    var cmd := RouterTable.EnableSecret(s.user.username);
    match Device(st, s.router, cmd)
    case Failure(e) => Run(st, [], Failure(DeviceFailure(e)))
    case Success(st1) =>
      var s' := s.(status := Active, start := Some(clock.now), expiry := Some(clock.monthLater));
      Run(st1.(subs := st1.subs[id := s']),
          [DeviceCommand(s.router, cmd), Saved(id), Notified(s.user.phone, smsUp)],
          if smsUp then Success(s') else Failure(NotificationFailure))
  }

  /** `updateExpiryDate`: an operator moves the expiry to exactly the given
      instant, never into the past; an EXPIRED subscription comes back
      ACTIVE with its secret re-enabled, keeping its original start. */
  function UpdateExpiryDate(st: State, id: SubId, newExpiry: Time, now: Time): (r: Run<Subscription>)
    ensures id !in st.subs ==> r == Run(st, [], Failure(SubscriptionNotFound))
    ensures id in st.subs && newExpiry < now ==> r == Run(st, [], Failure(ExpiryInPast))
    ensures r.outcome.Failure? ==> r.st == st && r.trace == []
    ensures r.outcome.Success? ==>
      && id in st.subs && now <= newExpiry
      && var s := st.subs[id];
      && r.outcome.value == s.(expiry := Some(newExpiry), status := if s.status == Expired then Active else s.status)
      && r.outcome.value.start == s.start
      && r.st.subs == st.subs[id := r.outcome.value]
      && r.st.ledger == st.ledger
      && (s.status == Expired ==>
            r.trace == [DeviceCommand(s.router, RouterTable.EnableSecret(s.user.username)), Saved(id)])
      && (s.status != Expired ==> r.trace == [Saved(id)] && r.st.routers == st.routers)
    ensures id in st.subs && now <= newExpiry && st.subs[id].status != Expired ==> r.outcome.Success?
    ensures id in st.subs && now <= newExpiry && st.subs[id].status == Expired ==>
      && var s := st.subs[id];
      && var cmd := RouterTable.EnableSecret(s.user.username);
      && (r.outcome.Success? <==> RouterAccepts(st, s, cmd))
      && (r.outcome.Success? ==> r.st.routers == st.routers[s.router := RouterTable.Apply(st.routers[s.router], cmd).value])
    ensures r.st.packages == st.packages
    ensures WellFormed(st) ==> WellFormed(r.st)
  {
    if id !in st.subs then Run(st, [], Failure(SubscriptionNotFound))
    else if newExpiry < now then Run(st, [], Failure(ExpiryInPast))
    else
      var s := st.subs[id].(expiry := Some(newExpiry));
      if s.status == Expired then
        var s' := s.(status := Active);
        var cmd := RouterTable.EnableSecret(s.user.username);
        match Device(st, s.router, cmd)
        case Failure(e) => Run(st, [], Failure(DeviceFailure(e)))
        case Success(st1) => Run(st1.(subs := st1.subs[id := s']), [DeviceCommand(s.router, cmd), Saved(id)], Success(s'))
      else
        Run(st.(subs := st.subs[id := s]), [Saved(id)], Success(s))
  }

  // ---------------------------------------------------------------------
  // Payment reconciliation
  // ---------------------------------------------------------------------

  /** `listed` is what `findByUserIdAndStatusInOrderByStartTimeAsc` returns:
      each of the user's PENDING, PAID and EXPIRED subscriptions exactly once,
      ordered by start time where both starts are known. */
  predicate ReconcileListing(st: State, userId: Ledger.UserId, listed: seq<SubId>) {
    && (forall i :: 0 <= i < |listed| ==>
          && listed[i] in st.subs
          && st.subs[listed[i]].user.id == userId
          && st.subs[listed[i]].status in {Pending, Paid, Expired})
    && (forall k :: k in st.subs && st.subs[k].user.id == userId && st.subs[k].status in {Pending, Paid, Expired} ==>
          k in listed)
    && (forall i, j :: 0 <= i < j < |listed| ==> listed[i] != listed[j])
    && (forall i, j :: 0 <= i < j < |listed| && st.subs[listed[i]].start.Some? && st.subs[listed[j]].start.Some? ==>
          st.subs[listed[i]].start.value <= st.subs[listed[j]].start.value)
  }

  /** Some listed subscription is attached to router `rid`. */
  predicate ListedOn(subs: map<SubId, Subscription>, listed: seq<SubId>, rid: RouterId) {
    exists k :: k in listed && k in subs && subs[k].router == rid
  }

  /** The router command reconciliation issues for `s`: re-enable an
      EXPIRED subscriber's secret, create it for any other. */
  function SettleCommand(s: Subscription): RouterTable.Command {
    if s.status == Expired then RouterTable.EnableSecret(s.user.username) else AddSecretFor(s)
  }

  /** One iteration of the reconciliation loop: EXPIRED ones are reactivated,
      the others forced to PAID and activated. */
  function SettleOne(st: State, id: SubId, clock: Clock, smsUp: bool): (r: Run<Subscription>)
    requires id in st.subs
    ensures r.st.ledger == st.ledger && r.st.packages == st.packages && r.st.subs.Keys == st.subs.Keys
    ensures OthersUnchanged(st.subs, r.st.subs, id)
    ensures r.outcome.Success? ==> Activated(st.subs[id], r.st.subs[id], clock)
    ensures r.outcome.Failure? && r.st.subs[id] != st.subs[id] ==>
      st.subs[id].status == Expired && Activated(st.subs[id], r.st.subs[id], clock)
    ensures r.outcome.Success? ==>
      && var s := st.subs[id];
      && RouterAccepts(st, s, SettleCommand(s))
      && r.st.routers == st.routers[s.router := RouterTable.Apply(st.routers[s.router], SettleCommand(s)).value]
    ensures r.outcome.Success? ==>
      && var s := st.subs[id];
      && r.trace == [DeviceCommand(s.router, SettleCommand(s)), Saved(id), Notified(s.user.phone, smsUp)]
      && CommandThenSave(r.trace, s.router, SettleCommand(s), id)
    ensures smsUp && RouterAccepts(st, st.subs[id], SettleCommand(st.subs[id])) ==> r.outcome.Success?
    ensures RoutersFrame(st.routers, r.st.routers, st.subs[id].router)
    ensures Replay(st.routers, r.trace) == Some(r.st.routers)
    ensures r.st.subs[id].router == st.subs[id].router
    ensures WellFormed(st) ==> WellFormed(r.st)
  {
    var s := st.subs[id];
    ReplayCommandSaveNotify(st.routers, s.router, SettleCommand(s), id, s.user.phone, smsUp);
    var r :=
      if s.status == Expired then ReactivateExpired(st, id, clock, smsUp)
      else
        var a := Activate(st.(subs := st.subs[id := s.(status := Paid)]), id, clock, smsUp);
        if a.outcome.Failure? then Run(st, [], a.outcome) else a;
    assert r.outcome.Success? ==> r.trace[0] == DeviceCommand(s.router, SettleCommand(s)) && r.trace[1] == Saved(id);
    r
  }

  /** The head of a listing is listed. */
  lemma ListedOnHead(subs: map<SubId, Subscription>, listed: seq<SubId>)
    requires |listed| > 0 && listed[0] in subs
    ensures ListedOn(subs, listed, subs[listed[0]].router)
  {
    assert listed[0] in listed;
  }

  /** One reconciliation step followed by the rest of the walk leaves
      every listed subscription's command-then-save in the joint trace. */
  lemma SettleTraceStep(st: State, step: Run<Subscription>, rest: Run<()>, listed: seq<SubId>)
    requires |listed| > 0 && forall i :: 0 <= i < |listed| ==> listed[i] in st.subs
    requires OthersUnchanged(st.subs, step.st.subs, listed[0])
    requires CommandThenSave(step.trace, st.subs[listed[0]].router, SettleCommand(st.subs[listed[0]]), listed[0])
    requires forall k :: k in listed[1..] ==>
      k in step.st.subs && CommandThenSave(rest.trace, step.st.subs[k].router, SettleCommand(step.st.subs[k]), k)
    ensures forall k :: k in listed ==> CommandThenSave(step.trace + rest.trace, st.subs[k].router, SettleCommand(st.subs[k]), k)
  {
    CommandThenSaveInConcat(step.trace, rest.trace);
    forall k | k in listed
      ensures CommandThenSave(step.trace + rest.trace, st.subs[k].router, SettleCommand(st.subs[k]), k)
    {
      if k != listed[0] {
        var i :| 0 <= i < |listed| && listed[i] == k;
        assert listed[1..][i - 1] == k;
      }
    }
  }

  /** A router no listed subscription lives on is untouched by one step
      nor by the rest of the walk. */
  lemma SettleRoutersStep(st: State, st1: State, st2: State, listed: seq<SubId>)
    requires |listed| > 0 && forall i :: 0 <= i < |listed| ==> listed[i] in st.subs
    requires RoutersFrame(st.routers, st1.routers, st.subs[listed[0]].router)
    requires OthersUnchanged(st.subs, st1.subs, listed[0]) && st1.subs.Keys == st.subs.Keys
    requires st1.subs[listed[0]].router == st.subs[listed[0]].router
    requires st2.routers.Keys == st1.routers.Keys
    requires forall rid :: rid in st1.routers && !ListedOn(st1.subs, listed[1..], rid) ==> st2.routers[rid] == st1.routers[rid]
    ensures st2.routers.Keys == st.routers.Keys
    ensures forall rid :: rid in st.routers && !ListedOn(st.subs, listed, rid) ==> st2.routers[rid] == st.routers[rid]
  {
    forall rid | rid in st.routers && !ListedOn(st.subs, listed, rid)
      ensures st2.routers[rid] == st.routers[rid]
    {
      assert listed[0] in listed;
      forall k | k in listed[1..] && k in st1.subs
        ensures st1.subs[k].router != rid
      {
        var i :| 0 <= i < |listed| - 1 && listed[1..][i] == k;
        assert listed[i + 1] == k;
      }
    }
  }

  /** The loop of `handlePaymentAndAutoActivate`: before each subscription
      the balance is re-read and the walk stops once it is positive; the
      first error aborts the walk. */
  function SettleInOrder(st: State, userId: Ledger.UserId, listed: seq<SubId>, clock: Clock, smsUp: bool): (r: Run<()>)
    requires forall i :: 0 <= i < |listed| ==> listed[i] in st.subs
    ensures r.st.ledger == st.ledger && r.st.packages == st.packages && r.st.subs.Keys == st.subs.Keys
    ensures forall k :: k in st.subs && k !in listed ==> r.st.subs[k] == st.subs[k]
    ensures Ledger.Balance(st.ledger, userId) > 0 ==> r == Run(st, [], Success(()))
    ensures Ledger.Balance(st.ledger, userId) <= 0 && r.outcome.Success? ==>
      forall i :: 0 <= i < |listed| ==> Activated(st.subs[listed[i]], r.st.subs[listed[i]], clock)
    ensures WellFormed(st) ==> WellFormed(r.st)
    decreases |listed|
  {
    if |listed| == 0 then Run(st, [], Success(()))
    else if Ledger.Balance(st.ledger, userId) > 0 then Run(st, [], Success(()))
    else
      var step := SettleOne(st, listed[0], clock, smsUp);
      if step.outcome.Failure? then Run(step.st, step.trace, Failure(step.outcome.error))
      else
        var rest := SettleInOrder(step.st, userId, listed[1..], clock, smsUp);
        SettleSubsStep(st.subs, step.st.subs, rest.st.subs, listed, clock, rest.outcome.Success?);
        Run(rest.st, step.trace + rest.trace, rest.outcome)
  }

  /** One step of the walk for the store: the head is activated by the
      step, the tail by the rest of the walk, and unlisted records by
      neither. */
  lemma SettleSubsStep(subs: map<SubId, Subscription>, subs1: map<SubId, Subscription>, subs2: map<SubId, Subscription>,
                       listed: seq<SubId>, clock: Clock, done: bool)
    requires |listed| > 0 && forall i :: 0 <= i < |listed| ==> listed[i] in subs
    requires subs1.Keys == subs.Keys && OthersUnchanged(subs, subs1, listed[0])
    requires Activated(subs[listed[0]], subs1[listed[0]], clock)
    requires subs2.Keys == subs1.Keys
    requires forall k :: k in subs1 && k !in listed[1..] ==> subs2[k] == subs1[k]
    requires done ==> forall i :: 0 <= i < |listed[1..]| ==> Activated(subs1[listed[1..][i]], subs2[listed[1..][i]], clock)
    ensures forall k :: k in subs && k !in listed ==> subs2[k] == subs[k]
    ensures done ==> forall i :: 0 <= i < |listed| ==> Activated(subs[listed[i]], subs2[listed[i]], clock)
  {
    assert forall k :: k in listed && k != listed[0] ==> k in listed[1..];
    if done {
      forall i | 0 <= i < |listed| ensures Activated(subs[listed[i]], subs2[listed[i]], clock) {
        if i > 0 {
          assert listed[i] == listed[1..][i - 1];
        }
      }
    }
  }

  /** The router side of the walk: routers no listed subscription lives on
      are untouched, and after a successful walk with the balance settled
      each listed subscription's command (re-enable for EXPIRED, create for
      the others) was accepted and followed by its save. */
  lemma {:induction false} SettleInOrderEffects(st: State, userId: Ledger.UserId, listed: seq<SubId>, clock: Clock, smsUp: bool)
    requires forall i :: 0 <= i < |listed| ==> listed[i] in st.subs
    ensures var r := SettleInOrder(st, userId, listed, clock, smsUp);
      && Replay(st.routers, r.trace) == Some(r.st.routers)
      && r.st.routers.Keys == st.routers.Keys
      && (forall rid :: rid in st.routers && !ListedOn(st.subs, listed, rid) ==> r.st.routers[rid] == st.routers[rid])
      && (Ledger.Balance(st.ledger, userId) <= 0 && r.outcome.Success? ==>
            forall k :: k in listed ==> CommandThenSave(r.trace, st.subs[k].router, SettleCommand(st.subs[k]), k))
    decreases |listed|
  {
    if |listed| > 0 && Ledger.Balance(st.ledger, userId) <= 0 {
      ListedOnHead(st.subs, listed);
      var step := SettleOne(st, listed[0], clock, smsUp);
      if step.outcome.Success? {
        var rest := SettleInOrder(step.st, userId, listed[1..], clock, smsUp);
        assert forall i :: 0 <= i < |listed[1..]| ==> listed[1..][i] in step.st.subs;
        SettleInOrderEffects(step.st, userId, listed[1..], clock, smsUp);
        ReplayConcat(st.routers, step.trace, rest.trace);
        SettleRoutersStep(st, step.st, rest.st, listed);
        if rest.outcome.Success? {
          SettleTraceStep(st, step, rest, listed);
        }
      }
    }
  }

  /** The calls reconciliation makes for one subscription that goes
      through: its router command, the save, the SMS. */
  function SettleTriple(s: Subscription, id: SubId, smsUp: bool): seq<Effect> {
    [DeviceCommand(s.router, SettleCommand(s)), Saved(id), Notified(s.user.phone, smsUp)]
  }

  /** The calls of a walk that settles `listed` in listing order, oldest
      first. */
  function SettleTrace(subs: map<SubId, Subscription>, listed: seq<SubId>, smsUp: bool): seq<Effect>
    requires forall i :: 0 <= i < |listed| ==> listed[i] in subs
    decreases |listed|
  {
    if |listed| == 0 then []
    else SettleTriple(subs[listed[0]], listed[0], smsUp) + SettleTrace(subs, listed[1..], smsUp)
  }

  /** The two ways one reconciliation step fails: the router refuses, and
      the record and the trace are untouched; or an EXPIRED subscription's
      secret is re-enabled and the record saved ACTIVE, and only its SMS
      fails. */
  predicate SettleFailed(s: Subscription, after: Subscription, tail: seq<Effect>, id: SubId, clock: Clock, smsUp: bool) {
    || (after == s && tail == [])
    || (s.status == Expired && !smsUp && Activated(s, after, clock) && tail == SettleTriple(s, id, smsUp))
  }

  /** The walk stopped at position `p`: everything before it was settled in
      order, with those calls opening the trace; the step at `p` failed in
      one of the two ways of `SettleFailed`, its calls (if any) ending the
      trace; and everything after it is as it was. */
  predicate StoppedAt(subs: map<SubId, Subscription>, after: map<SubId, Subscription>, trace: seq<Effect>,
                      listed: seq<SubId>, p: int, clock: Clock, smsUp: bool) {
    && 0 <= p < |listed|
    && (forall i :: 0 <= i < |listed| ==> listed[i] in subs && listed[i] in after)
    && var settled := SettleTrace(subs, listed[..p], smsUp);
    && settled <= trace
    && (forall i :: 0 <= i < p ==> Activated(subs[listed[i]], after[listed[i]], clock))
    && SettleFailed(subs[listed[p]], after[listed[p]], trace[|settled|..], listed[p], clock, smsUp)
    && (forall i :: p < i < |listed| ==> after[listed[i]] == subs[listed[i]])
  }

  /** The calls depend only on the listed records. */
  lemma {:induction false} SettleTraceAgrees(a: map<SubId, Subscription>, b: map<SubId, Subscription>, listed: seq<SubId>, smsUp: bool)
    requires forall i :: 0 <= i < |listed| ==> listed[i] in a && listed[i] in b && a[listed[i]] == b[listed[i]]
    ensures SettleTrace(a, listed, smsUp) == SettleTrace(b, listed, smsUp)
    decreases |listed|
  {
    if |listed| > 0 {
      SettleTraceAgrees(a, b, listed[1..], smsUp);
    }
  }

  /** Settling the first `q + 1` listed subscriptions makes the head's
      calls followed by those of the next `q`, which depend only on the
      tail's records. */
  lemma SettleTraceTake(subs: map<SubId, Subscription>, subs1: map<SubId, Subscription>, listed: seq<SubId>, q: int, smsUp: bool)
    requires 0 <= q < |listed| && forall i :: 0 <= i < |listed| ==> listed[i] in subs
    requires forall i :: 1 <= i < |listed| ==> listed[i] in subs1 && subs1[listed[i]] == subs[listed[i]]
    ensures forall i :: 0 <= i < |listed[1..][..q]| ==> listed[1..][..q][i] in subs1
    ensures SettleTrace(subs, listed[..q + 1], smsUp) ==
      SettleTriple(subs[listed[0]], listed[0], smsUp) + SettleTrace(subs1, listed[1..][..q], smsUp)
  {
    var front := listed[1..][..q];
    assert listed[..q + 1][1..] == front;
    forall i | 0 <= i < |front| ensures front[i] in subs1 && subs1[front[i]] == subs[front[i]] {
      assert front[i] == listed[i + 1];
    }
    SettleTraceAgrees(subs, subs1, front, smsUp);
  }

  /** A walk that settled the head and then stopped at `q` in the tail
      stopped at `q + 1` overall. */
  lemma SettleStoppedStep(subs: map<SubId, Subscription>, subs1: map<SubId, Subscription>, subs2: map<SubId, Subscription>,
                          t1: seq<Effect>, t2: seq<Effect>, listed: seq<SubId>, q: int, clock: Clock, smsUp: bool)
    requires |listed| > 0 && forall i :: 0 <= i < |listed| ==> listed[i] in subs
    requires forall i :: 1 <= i < |listed| ==> listed[i] != listed[0]
    requires subs1.Keys == subs.Keys && OthersUnchanged(subs, subs1, listed[0])
    requires Activated(subs[listed[0]], subs1[listed[0]], clock)
    requires t1 == SettleTriple(subs[listed[0]], listed[0], smsUp)
    requires subs2.Keys == subs1.Keys && forall k :: k in subs1 && k !in listed[1..] ==> subs2[k] == subs1[k]
    requires StoppedAt(subs1, subs2, t2, listed[1..], q, clock, smsUp)
    ensures StoppedAt(subs, subs2, t1 + t2, listed, q + 1, clock, smsUp)
  {
    var tail := listed[1..];
    assert listed[0] !in tail;
    SettleTraceTake(subs, subs1, listed, q, smsUp);
    var x := SettleTrace(subs1, tail[..q], smsUp);
    assert (t1 + t2)[|t1 + x|..] == t2[|x|..];
    assert listed[q + 1] == tail[q];
    forall i | 0 <= i < q + 1 ensures Activated(subs[listed[i]], subs2[listed[i]], clock) {
      if i > 0 {
        assert listed[i] == tail[i - 1];
      }
    }
    forall i | q + 1 < i < |listed| ensures subs2[listed[i]] == subs[listed[i]] {
      assert listed[i] == tail[i - 1];
    }
  }

  /** A step that touched only the head leaves the tail's records as they
      were. */
  lemma TailUntouched(subs: map<SubId, Subscription>, subs1: map<SubId, Subscription>, listed: seq<SubId>)
    requires |listed| > 0 && forall i :: 0 <= i < |listed| ==> listed[i] in subs
    requires forall i, j :: 0 <= i < j < |listed| ==> listed[i] != listed[j]
    requires subs1.Keys == subs.Keys && OthersUnchanged(subs, subs1, listed[0])
    ensures forall i :: 0 <= i < |listed[1..]| ==>
      listed[1..][i] != listed[0] && listed[1..][i] in subs1 && subs1[listed[1..][i]] == subs[listed[1..][i]]
    ensures forall i :: 1 <= i < |listed| ==> listed[i] != listed[0]
  {
    forall i | 0 <= i < |listed[1..]| ensures listed[1..][i] != listed[0] {
      assert listed[1..][i] == listed[i + 1];
    }
  }

  /** A walk whose first step failed stopped at position 0. */
  lemma SettleStoppedAtHead(subs: map<SubId, Subscription>, subs1: map<SubId, Subscription>, trace: seq<Effect>,
                            listed: seq<SubId>, clock: Clock, smsUp: bool)
    requires |listed| > 0 && forall i :: 0 <= i < |listed| ==> listed[i] in subs
    requires forall i :: 1 <= i < |listed| ==> listed[i] != listed[0]
    requires subs1.Keys == subs.Keys && OthersUnchanged(subs, subs1, listed[0])
    requires SettleFailed(subs[listed[0]], subs1[listed[0]], trace, listed[0], clock, smsUp)
    ensures StoppedAt(subs, subs1, trace, listed, 0, clock, smsUp)
  {
    assert listed[..0] == [];
    assert trace[0..] == trace;
  }

  /** A reconciliation step fails in one of the two ways of
      `SettleFailed`: a refused router command leaves the record and the
      trace untouched, and a failure after the command can only be the SMS
      of a re-enabled EXPIRED subscription. */
  lemma SettleOneFails(st: State, id: SubId, clock: Clock, smsUp: bool)
    requires id in st.subs
    ensures var r := SettleOne(st, id, clock, smsUp);
      r.outcome.Failure? ==> SettleFailed(st.subs[id], r.st.subs[id], r.trace, id, clock, smsUp)
  {
  }

  /** A first reconciliation step that fails stops the walk at position 0. */
  lemma SettleFailsAtHead(st: State, listed: seq<SubId>, clock: Clock, smsUp: bool)
    requires |listed| > 0 && forall i :: 0 <= i < |listed| ==> listed[i] in st.subs
    requires forall i, j :: 0 <= i < j < |listed| ==> listed[i] != listed[j]
    ensures var step := SettleOne(st, listed[0], clock, smsUp);
      step.outcome.Failure? ==> StoppedAt(st.subs, step.st.subs, step.trace, listed, 0, clock, smsUp)
  {
    var step := SettleOne(st, listed[0], clock, smsUp);
    if step.outcome.Failure? {
      SettleOneFails(st, listed[0], clock, smsUp);
      TailUntouched(st.subs, step.st.subs, listed);
      SettleStoppedAtHead(st.subs, step.st.subs, step.trace, listed, clock, smsUp);
    }
  }

  /** `handlePaymentAndAutoActivate` walks oldest first: with the balance
      settled, a walk that goes through makes exactly the calls of
      `SettleTrace`, in listing order. */
  lemma {:induction false} SettleInOrderOldestFirst(st: State, userId: Ledger.UserId, listed: seq<SubId>, clock: Clock, smsUp: bool)
    requires forall i :: 0 <= i < |listed| ==> listed[i] in st.subs
    requires forall i, j :: 0 <= i < j < |listed| ==> listed[i] != listed[j]
    requires Ledger.Balance(st.ledger, userId) <= 0
    ensures var r := SettleInOrder(st, userId, listed, clock, smsUp);
      r.outcome.Success? ==> r.trace == SettleTrace(st.subs, listed, smsUp)
    decreases |listed|
  {
    if |listed| > 0 {
      var step := SettleOne(st, listed[0], clock, smsUp);
      if step.outcome.Success? {
        TailUntouched(st.subs, step.st.subs, listed);
        SettleInOrderOldestFirst(step.st, userId, listed[1..], clock, smsUp);
        SettleTraceAgrees(st.subs, step.st.subs, listed[1..], smsUp);
      }
    }
  }

  /** One step of the walk with the balance settled: the head, then the
      rest of the walk from where the head left the store. */
  lemma SettleInOrderUnfold(st: State, userId: Ledger.UserId, listed: seq<SubId>, clock: Clock, smsUp: bool)
    requires |listed| > 0 && forall i :: 0 <= i < |listed| ==> listed[i] in st.subs
    requires Ledger.Balance(st.ledger, userId) <= 0
    ensures var step := SettleOne(st, listed[0], clock, smsUp);
      var r := SettleInOrder(st, userId, listed, clock, smsUp);
      && (step.outcome.Failure? ==> r.st == step.st && r.trace == step.trace && r.outcome.Failure?)
      && (step.outcome.Success? ==>
            && (forall i :: 0 <= i < |listed[1..]| ==> listed[1..][i] in step.st.subs)
            && var rest := SettleInOrder(step.st, userId, listed[1..], clock, smsUp);
            && r == Run(rest.st, step.trace + rest.trace, rest.outcome))
  {
  }

  /** A walk that fails, with the balance settled, stopped at the position
      `p` it returns: every subscription before it was settled, in order,
      with its calls opening the trace, and every one after it is
      untouched. */
  lemma {:induction false} SettleInOrderStopsInOrder(st: State, userId: Ledger.UserId, listed: seq<SubId>, clock: Clock, smsUp: bool)
    returns (p: int)
    requires forall i :: 0 <= i < |listed| ==> listed[i] in st.subs
    requires forall i, j :: 0 <= i < j < |listed| ==> listed[i] != listed[j]
    requires Ledger.Balance(st.ledger, userId) <= 0
    ensures var r := SettleInOrder(st, userId, listed, clock, smsUp);
      r.outcome.Failure? ==> StoppedAt(st.subs, r.st.subs, r.trace, listed, p, clock, smsUp)
    decreases |listed|
  {
    p := 0;
    if |listed| > 0 {
      SettleInOrderUnfold(st, userId, listed, clock, smsUp);
      var step := SettleOne(st, listed[0], clock, smsUp);
      if step.outcome.Failure? {
        SettleFailsAtHead(st, listed, clock, smsUp);
      } else {
        TailUntouched(st.subs, step.st.subs, listed);
        var rest := SettleInOrder(step.st, userId, listed[1..], clock, smsUp);
        var q := SettleInOrderStopsInOrder(step.st, userId, listed[1..], clock, smsUp);
        if rest.outcome.Failure? {
          SettleStoppedStep(st.subs, step.st.subs, rest.st.subs, step.trace, rest.trace, listed, q, clock, smsUp);
          p := q + 1;
        }
      }
    }
  }

  /** `handlePaymentAndAutoActivate`: book the payment, and when that settles
      the user's balance, walk the listed subscriptions oldest first. */
  function HandlePayment(st: State, user: User, amount: int, reference: string, listed: seq<SubId>, clock: Clock, smsUp: bool): (r: Run<()>)
    requires ReconcileListing(st, user.id, listed)
    ensures var payment := Ledger.Payment(user.id, amount, reference);
      && r.st.ledger == st.ledger + [payment]
      && |r.trace| > 0 && r.trace[0] == Booked(payment)
      && Ledger.Balance(r.st.ledger, user.id) == Ledger.Balance(st.ledger, user.id) - amount
    ensures r.st.subs.Keys == st.subs.Keys
    ensures Ledger.Balance(st.ledger, user.id) - amount > 0 ==>
      r.st.subs == st.subs && r.st.routers == st.routers && r.outcome.Success? && |r.trace| == 1
    ensures Ledger.Balance(st.ledger, user.id) - amount <= 0 && r.outcome.Success? ==>
      forall i :: 0 <= i < |listed| ==> Activated(st.subs[listed[i]], r.st.subs[listed[i]], clock)
    ensures forall k :: k in st.subs && k !in listed ==> r.st.subs[k] == st.subs[k]
    ensures Ledger.Balance(st.ledger, user.id) - amount <= 0 && r.outcome.Success? ==>
      forall k :: k in listed ==> CommandThenSave(r.trace, st.subs[k].router, SettleCommand(st.subs[k]), k)
    ensures r.st.packages == st.packages && r.st.routers.Keys == st.routers.Keys
    ensures Replay(st.routers, r.trace) == Some(r.st.routers)
    ensures forall rid :: rid in st.routers && !ListedOn(st.subs, listed, rid) ==> r.st.routers[rid] == st.routers[rid]
    ensures Ledger.Balance(st.ledger, user.id) - amount <= 0 && r.outcome.Success? ==>
      r.trace == [Booked(Ledger.Payment(user.id, amount, reference))] + SettleTrace(st.subs, listed, smsUp)
    ensures Ledger.Balance(st.ledger, user.id) - amount <= 0 && r.outcome.Failure? ==>
      exists p :: StoppedAt(st.subs, r.st.subs, r.trace[1..], listed, p, clock, smsUp)
    ensures WellFormed(st) ==> WellFormed(r.st)
  {
    var payment := Ledger.Payment(user.id, amount, reference);
    Ledger.BalanceAppend(st.ledger, payment, user.id);
    var st1 := st.(ledger := st.ledger + [payment]);
    assert Replay(st.routers, [Booked(payment)]) == Some(st.routers) by {
      assert [Booked(payment)][1..] == [];
    }
    if Ledger.Balance(st1.ledger, user.id) > 0 then Run(st1, [Booked(payment)], Success(()))
    else
      var walk := SettleInOrder(st1, user.id, listed, clock, smsUp);
      BookedThenWalk(st, payment, user.id, listed, clock, smsUp);
      Run(walk.st, [Booked(payment)] + walk.trace, walk.outcome)
  }

  /** The calls of a settling payment: the booking, then the walk, with
      the walk's router effects, order and stopping point carried over to
      the joint trace. */
  lemma BookedThenWalk(st: State, payment: Ledger.Entry, userId: Ledger.UserId, listed: seq<SubId>, clock: Clock, smsUp: bool)
    requires forall i :: 0 <= i < |listed| ==> listed[i] in st.subs
    requires forall i, j :: 0 <= i < j < |listed| ==> listed[i] != listed[j]
    requires Ledger.Balance(st.ledger + [payment], userId) <= 0
    ensures var walk := SettleInOrder(st.(ledger := st.ledger + [payment]), userId, listed, clock, smsUp);
      var trace := [Booked(payment)] + walk.trace;
      && Replay(st.routers, trace) == Some(walk.st.routers)
      && walk.st.routers.Keys == st.routers.Keys
      && (forall rid :: rid in st.routers && !ListedOn(st.subs, listed, rid) ==> walk.st.routers[rid] == st.routers[rid])
      && (walk.outcome.Success? ==>
            forall k :: k in listed ==> CommandThenSave(trace, st.subs[k].router, SettleCommand(st.subs[k]), k))
      && (walk.outcome.Success? ==> trace == [Booked(payment)] + SettleTrace(st.subs, listed, smsUp))
      && (walk.outcome.Failure? ==> exists p :: StoppedAt(st.subs, walk.st.subs, trace[1..], listed, p, clock, smsUp))
  {
    var st1 := st.(ledger := st.ledger + [payment]);
    var walk := SettleInOrder(st1, userId, listed, clock, smsUp);
    assert Replay(st.routers, [Booked(payment)]) == Some(st.routers) by {
      assert [Booked(payment)][1..] == [];
    }
    SettleInOrderEffects(st1, userId, listed, clock, smsUp);
    CommandThenSaveInConcat([Booked(payment)], walk.trace);
    ReplayConcat(st.routers, [Booked(payment)], walk.trace);
    SettleInOrderOldestFirst(st1, userId, listed, clock, smsUp);
    var p := SettleInOrderStopsInOrder(st1, userId, listed, clock, smsUp);
    assert ([Booked(payment)] + walk.trace)[1..] == walk.trace;
    assert walk.outcome.Failure? ==> StoppedAt(st.subs, walk.st.subs, walk.trace, listed, p, clock, smsUp);
  }

  // ---------------------------------------------------------------------
  // Expiry sweep
  // ---------------------------------------------------------------------

  /** An ACTIVE subscription whose period ended before `now`. */
  predicate Overdue(s: Subscription, now: Time) {
    s.status == Active && s.expiry.Some? && s.expiry.value < now
  }

  /** `listed` is what `findByStatusAndExpiryTimeBefore(ACTIVE, now)`
      returns: every overdue subscription exactly once, in any order. */
  predicate SweepListing(st: State, listed: seq<SubId>, now: Time) {
    && (forall i :: 0 <= i < |listed| ==> listed[i] in st.subs && Overdue(st.subs[listed[i]], now))
    && (forall k :: k in st.subs && Overdue(st.subs[k], now) ==> k in listed)
    && (forall i, j :: 0 <= i < j < |listed| ==> listed[i] != listed[j])
  }

  /** The subscriber behind `s` still owes money. */
  predicate Owes(ledger: seq<Ledger.Entry>, s: Subscription) {
    Ledger.Balance(ledger, s.user.id) > 0
  }

  /** One iteration of the sweep: a subscriber who owes is cut off on the
      router, then the record is saved EXPIRED, then notified (unguarded). */
  function SuspendOne(st: State, id: SubId, now: Time, smsUp: bool): (r: Run<()>)
    requires id in st.subs && Overdue(st.subs[id], now)
    ensures r.st.ledger == st.ledger && r.st.packages == st.packages && r.st.subs.Keys == st.subs.Keys
    ensures OthersUnchanged(st.subs, r.st.subs, id)
    ensures !Owes(st.ledger, st.subs[id]) ==> r == Run(st, [], Success(()))
    ensures Owes(st.ledger, st.subs[id]) ==>
      && var s := st.subs[id];
      && var cmd := RouterTable.DisableSecret(s.user.username);
      && (!RouterAccepts(st, s, cmd) ==> r.st == st && r.trace == [] && r.outcome.Failure?)
      && (RouterAccepts(st, s, cmd) ==>
            && r.st.subs[id] == s.(status := Expired)
            && r.st.routers == st.routers[s.router := RouterTable.Apply(st.routers[s.router], cmd).value]
            && r.trace == [DeviceCommand(s.router, cmd), Saved(id), Notified(s.user.phone, smsUp)]
            && (r.outcome.Success? <==> smsUp))
    ensures Owes(st.ledger, st.subs[id]) && r.outcome.Success? ==>
      CommandThenSave(r.trace, st.subs[id].router, RouterTable.DisableSecret(st.subs[id].user.username), id)
    ensures r.outcome.Failure? ==> SuspendFailed(st.ledger, st.subs[id], r.st.subs[id], r.trace, id, smsUp)
    ensures RoutersFrame(st.routers, r.st.routers, st.subs[id].router)
    ensures Replay(st.routers, r.trace) == Some(r.st.routers)
    ensures r.st.subs[id].router == st.subs[id].router
    ensures WellFormed(st) ==> WellFormed(r.st)
  {
    var s := st.subs[id];
    var cmd := RouterTable.DisableSecret(s.user.username);
    ReplayCommandSaveNotify(st.routers, s.router, cmd, id, s.user.phone, smsUp);
    var r :=
      if Ledger.Balance(st.ledger, s.user.id) <= 0 then Run(st, [], Success(()))
      else
        match Device(st, s.router, cmd)
        case Failure(e) => Run(st, [], Failure(DeviceFailure(e)))
        case Success(st1) =>
          Run(st1.(subs := st1.subs[id := s.(status := Expired)]),
              [DeviceCommand(s.router, cmd), Saved(id), Notified(s.user.phone, smsUp)],
              if smsUp then Success(()) else Failure(NotificationFailure));
    assert Owes(st.ledger, s) && r.outcome.Success? ==> r.trace[0] == DeviceCommand(s.router, cmd) && r.trace[1] == Saved(id);
    r
  }

  /** Every listed id names a distinct overdue subscription. */
  predicate OverdueDistinct(st: State, listed: seq<SubId>, now: Time) {
    && (forall i :: 0 <= i < |listed| ==> listed[i] in st.subs && Overdue(st.subs[listed[i]], now))
    && (forall i, j :: 0 <= i < j < |listed| ==> listed[i] != listed[j])
  }

  /** The sweep loop over the listed subscriptions; the first error aborts. */
  function SuspendInOrder(st: State, listed: seq<SubId>, now: Time, smsUp: bool): (r: Run<()>)
    requires OverdueDistinct(st, listed, now)
    ensures r.st.ledger == st.ledger && r.st.packages == st.packages && r.st.subs.Keys == st.subs.Keys
    ensures forall k :: k in st.subs && k !in listed ==> r.st.subs[k] == st.subs[k]
    ensures forall k :: k in st.subs && !Owes(st.ledger, st.subs[k]) ==> r.st.subs[k] == st.subs[k]
    ensures r.outcome.Success? ==>
      forall i :: 0 <= i < |listed| && Owes(st.ledger, st.subs[listed[i]]) ==>
        r.st.subs[listed[i]] == st.subs[listed[i]].(status := Expired)
    ensures (forall i :: 0 <= i < |listed| ==> !Owes(st.ledger, st.subs[listed[i]])) ==> r == Run(st, [], Success(()))
    ensures WellFormed(st) ==> WellFormed(r.st)
    decreases |listed|
  {
    if |listed| == 0 then Run(st, [], Success(()))
    else
      var step := SuspendOne(st, listed[0], now, smsUp);
      if step.outcome.Failure? then step
      else
        assert OverdueDistinct(step.st, listed[1..], now);
        var rest := SuspendInOrder(step.st, listed[1..], now, smsUp);
        SuspendSubsStep(st.ledger, st.subs, step.st.subs, rest.st.subs, listed, rest.outcome.Success?);
        Run(rest.st, step.trace + rest.trace, rest.outcome)
  }

  /** One step of the sweep for the store: the head expires in the step if
      its subscriber owes, the later ones in the rest, and records that are
      unlisted or whose subscriber owes nothing in neither. */
  lemma SuspendSubsStep(ledger: seq<Ledger.Entry>, subs: map<SubId, Subscription>, subs1: map<SubId, Subscription>,
                        subs2: map<SubId, Subscription>, listed: seq<SubId>, done: bool)
    requires |listed| > 0 && forall i :: 0 <= i < |listed| ==> listed[i] in subs
    requires forall i :: 1 <= i < |listed| ==> listed[i] != listed[0]
    requires subs1.Keys == subs.Keys && OthersUnchanged(subs, subs1, listed[0])
    requires Owes(ledger, subs[listed[0]]) ==> subs1[listed[0]] == subs[listed[0]].(status := Expired)
    requires !Owes(ledger, subs[listed[0]]) ==> subs1 == subs
    requires subs2.Keys == subs1.Keys
    requires forall k :: k in subs1 && k !in listed[1..] ==> subs2[k] == subs1[k]
    requires forall k :: k in subs1 && !Owes(ledger, subs1[k]) ==> subs2[k] == subs1[k]
    requires done ==> forall i :: 0 <= i < |listed[1..]| && Owes(ledger, subs1[listed[1..][i]]) ==>
      subs2[listed[1..][i]] == subs1[listed[1..][i]].(status := Expired)
    ensures forall k :: k in subs && k !in listed ==> subs2[k] == subs[k]
    ensures forall k :: k in subs && !Owes(ledger, subs[k]) ==> subs2[k] == subs[k]
    ensures done ==> forall i :: 0 <= i < |listed| && Owes(ledger, subs[listed[i]]) ==>
      subs2[listed[i]] == subs[listed[i]].(status := Expired)
  {
    assert listed[0] !in listed[1..];
    if done {
      forall i | 0 <= i < |listed| && Owes(ledger, subs[listed[i]])
        ensures subs2[listed[i]] == subs[listed[i]].(status := Expired)
      {
        if i > 0 {
          assert listed[i] == listed[1..][i - 1];
        }
      }
    }
  }

  /** Some listed subscription whose subscriber owes is attached to router
      `rid`. */
  predicate SweptOn(st: State, listed: seq<SubId>, rid: RouterId) {
    exists k :: k in listed && k in st.subs && Owes(st.ledger, st.subs[k]) && st.subs[k].router == rid
  }

  /** One step of the sweep for the trace: the head's disable-then-save is
      in the step's part, every later one in the rest. */
  lemma SuspendTraceStep(st: State, step: Run<()>, rest: Run<()>, listed: seq<SubId>)
    requires |listed| > 0 && forall i :: 0 <= i < |listed| ==> listed[i] in st.subs
    requires OthersUnchanged(st.subs, step.st.subs, listed[0]) && step.st.ledger == st.ledger
    requires Owes(st.ledger, st.subs[listed[0]]) ==>
      CommandThenSave(step.trace, st.subs[listed[0]].router, RouterTable.DisableSecret(st.subs[listed[0]].user.username), listed[0])
    requires forall k :: k in listed[1..] && k in step.st.subs && Owes(step.st.ledger, step.st.subs[k]) ==>
      CommandThenSave(rest.trace, step.st.subs[k].router, RouterTable.DisableSecret(step.st.subs[k].user.username), k)
    ensures forall k :: k in listed && Owes(st.ledger, st.subs[k]) ==>
      CommandThenSave(step.trace + rest.trace, st.subs[k].router, RouterTable.DisableSecret(st.subs[k].user.username), k)
  {
    CommandThenSaveInConcat(step.trace, rest.trace);
    forall k | k in listed && Owes(st.ledger, st.subs[k])
      ensures CommandThenSave(step.trace + rest.trace, st.subs[k].router, RouterTable.DisableSecret(st.subs[k].user.username), k)
    {
      if k != listed[0] {
        var i :| 0 <= i < |listed| && listed[i] == k;
        assert listed[1..][i - 1] == k;
      }
    }
  }

  /** One step of the sweep for the routers: a router no owing listed
      subscriber lives on is untouched by the step and by the rest. */
  lemma SuspendRoutersStep(st: State, st1: State, st2: State, listed: seq<SubId>)
    requires |listed| > 0 && forall i :: 0 <= i < |listed| ==> listed[i] in st.subs
    requires forall i :: 1 <= i < |listed| ==> listed[i] != listed[0]
    requires RoutersFrame(st.routers, st1.routers, st.subs[listed[0]].router)
    requires !Owes(st.ledger, st.subs[listed[0]]) ==> st1.routers == st.routers
    requires OthersUnchanged(st.subs, st1.subs, listed[0]) && st1.subs.Keys == st.subs.Keys && st1.ledger == st.ledger
    requires st2.routers.Keys == st1.routers.Keys
    requires forall rid :: rid in st1.routers && !SweptOn(st1, listed[1..], rid) ==> st2.routers[rid] == st1.routers[rid]
    ensures st2.routers.Keys == st.routers.Keys
    ensures forall rid :: rid in st.routers && !SweptOn(st, listed, rid) ==> st2.routers[rid] == st.routers[rid]
  {
    forall rid | rid in st.routers && !SweptOn(st, listed, rid)
      ensures st2.routers[rid] == st.routers[rid]
    {
      assert listed[0] in listed;
      forall k | k in listed[1..] && k in st1.subs && Owes(st1.ledger, st1.subs[k])
        ensures st1.subs[k].router != rid
      {
        var i :| 0 <= i < |listed| - 1 && listed[1..][i] == k;
        assert listed[i + 1] == k;
      }
    }
  }

  /** The router side of the sweep loop: a router no owing listed
      subscriber lives on is untouched, and after a successful run each
      owing listed subscriber's secret was disabled and the record saved
      right after. */
  lemma {:induction false} SuspendInOrderEffects(st: State, listed: seq<SubId>, now: Time, smsUp: bool)
    requires OverdueDistinct(st, listed, now)
    ensures var r := SuspendInOrder(st, listed, now, smsUp);
      && Replay(st.routers, r.trace) == Some(r.st.routers)
      && r.st.routers.Keys == st.routers.Keys
      && (forall rid :: rid in st.routers && !SweptOn(st, listed, rid) ==> r.st.routers[rid] == st.routers[rid])
      && (r.outcome.Success? ==>
            forall k :: k in listed && Owes(st.ledger, st.subs[k]) ==>
              CommandThenSave(r.trace, st.subs[k].router, RouterTable.DisableSecret(st.subs[k].user.username), k))
    decreases |listed|
  {
    if |listed| > 0 {
      var step := SuspendOne(st, listed[0], now, smsUp);
      if step.outcome.Success? {
        assert OverdueDistinct(step.st, listed[1..], now);
        var rest := SuspendInOrder(step.st, listed[1..], now, smsUp);
        SuspendInOrderEffects(step.st, listed[1..], now, smsUp);
        ReplayConcat(st.routers, step.trace, rest.trace);
        SuspendRoutersStep(st, step.st, rest.st, listed);
        if rest.outcome.Success? {
          SuspendTraceStep(st, step, rest, listed);
        }
      }
    }
  }

  /** The calls the sweep makes for one subscriber who owes: the disable,
      the save, the SMS. */
  function SuspendTriple(s: Subscription, id: SubId, smsUp: bool): seq<Effect> {
    [DeviceCommand(s.router, RouterTable.DisableSecret(s.user.username)), Saved(id), Notified(s.user.phone, smsUp)]
  }

  /** The calls of a sweep that goes through `listed` in listing order:
      one `SuspendTriple` per subscriber who owes, nothing for the others. */
  function SuspendTrace(ledger: seq<Ledger.Entry>, subs: map<SubId, Subscription>, listed: seq<SubId>, smsUp: bool): seq<Effect>
    requires forall i :: 0 <= i < |listed| ==> listed[i] in subs
    decreases |listed|
  {
    if |listed| == 0 then []
    else
      (if Owes(ledger, subs[listed[0]]) then SuspendTriple(subs[listed[0]], listed[0], smsUp) else [])
      + SuspendTrace(ledger, subs, listed[1..], smsUp)
  }

  /** The two ways one sweep step fails, both for a subscriber who owes:
      the router refuses the disable, and the record and the trace are
      untouched; or the disable goes through and the record is saved
      EXPIRED, and only its SMS fails. */
  predicate SuspendFailed(ledger: seq<Ledger.Entry>, s: Subscription, after: Subscription, tail: seq<Effect>, id: SubId, smsUp: bool) {
    && Owes(ledger, s)
    && (|| (after == s && tail == [])
        || (!smsUp && after == s.(status := Expired) && tail == SuspendTriple(s, id, smsUp)))
  }

  /** The sweep stopped at position `p`: every owing subscriber before it
      was cut off in order, with those calls opening the trace; the step at
      `p` failed in one of the two ways of `SuspendFailed`, its calls (if
      any) ending the trace; and everything after it is as it was. */
  predicate SweepStoppedAt(ledger: seq<Ledger.Entry>, subs: map<SubId, Subscription>, after: map<SubId, Subscription>,
                           trace: seq<Effect>, listed: seq<SubId>, p: int, smsUp: bool) {
    && 0 <= p < |listed|
    && (forall i :: 0 <= i < |listed| ==> listed[i] in subs && listed[i] in after)
    && var swept := SuspendTrace(ledger, subs, listed[..p], smsUp);
    && swept <= trace
    && (forall i :: 0 <= i < p && Owes(ledger, subs[listed[i]]) ==> after[listed[i]] == subs[listed[i]].(status := Expired))
    && SuspendFailed(ledger, subs[listed[p]], after[listed[p]], trace[|swept|..], listed[p], smsUp)
    && (forall i :: p < i < |listed| ==> after[listed[i]] == subs[listed[i]])
  }

  /** The sweep's calls depend only on the listed records. */
  lemma {:induction false} SuspendTraceAgrees(ledger: seq<Ledger.Entry>, a: map<SubId, Subscription>, b: map<SubId, Subscription>,
                                              listed: seq<SubId>, smsUp: bool)
    requires forall i :: 0 <= i < |listed| ==> listed[i] in a && listed[i] in b && a[listed[i]] == b[listed[i]]
    ensures SuspendTrace(ledger, a, listed, smsUp) == SuspendTrace(ledger, b, listed, smsUp)
    decreases |listed|
  {
    if |listed| > 0 {
      SuspendTraceAgrees(ledger, a, b, listed[1..], smsUp);
    }
  }

  /** A sweep whose first step failed stopped at position 0. */
  lemma SweepStoppedAtHead(ledger: seq<Ledger.Entry>, subs: map<SubId, Subscription>, subs1: map<SubId, Subscription>,
                           trace: seq<Effect>, listed: seq<SubId>, smsUp: bool)
    requires |listed| > 0 && forall i :: 0 <= i < |listed| ==> listed[i] in subs
    requires forall i :: 1 <= i < |listed| ==> listed[i] != listed[0]
    requires subs1.Keys == subs.Keys && OthersUnchanged(subs, subs1, listed[0])
    requires SuspendFailed(ledger, subs[listed[0]], subs1[listed[0]], trace, listed[0], smsUp)
    ensures SweepStoppedAt(ledger, subs, subs1, trace, listed, 0, smsUp)
  {
    assert listed[..0] == [];
    assert trace[0..] == trace;
  }

  /** A sweep that dealt with the head and then stopped at `q` in the tail
      stopped at `q + 1` overall. */
  lemma SweepStoppedStep(ledger: seq<Ledger.Entry>, subs: map<SubId, Subscription>, subs1: map<SubId, Subscription>,
                         subs2: map<SubId, Subscription>, t1: seq<Effect>, t2: seq<Effect>, listed: seq<SubId>, q: int, smsUp: bool)
    requires |listed| > 0 && forall i :: 0 <= i < |listed| ==> listed[i] in subs
    requires forall i :: 1 <= i < |listed| ==> listed[i] != listed[0]
    requires subs1.Keys == subs.Keys && OthersUnchanged(subs, subs1, listed[0])
    requires Owes(ledger, subs[listed[0]]) ==>
      subs1[listed[0]] == subs[listed[0]].(status := Expired) && t1 == SuspendTriple(subs[listed[0]], listed[0], smsUp)
    requires !Owes(ledger, subs[listed[0]]) ==> subs1 == subs && t1 == []
    requires subs2.Keys == subs1.Keys && forall k :: k in subs1 && k !in listed[1..] ==> subs2[k] == subs1[k]
    requires SweepStoppedAt(ledger, subs1, subs2, t2, listed[1..], q, smsUp)
    ensures SweepStoppedAt(ledger, subs, subs2, t1 + t2, listed, q + 1, smsUp)
  {
    var tail := listed[1..];
    assert listed[0] !in tail;
    assert listed[..q + 1][1..] == tail[..q];
    SuspendTraceAgrees(ledger, subs, subs1, tail[..q], smsUp);
    var x := SuspendTrace(ledger, subs1, tail[..q], smsUp);
    assert SuspendTrace(ledger, subs, listed[..q + 1], smsUp) == t1 + x;
    assert x <= t2;
    assert (t1 + t2)[|t1 + x|..] == t2[|x|..];
    assert listed[q + 1] == tail[q];
    forall i | 0 <= i < q + 1 && Owes(ledger, subs[listed[i]])
      ensures subs2[listed[i]] == subs[listed[i]].(status := Expired)
    {
      if i > 0 {
        assert listed[i] == tail[i - 1];
      }
    }
    forall i | q + 1 < i < |listed| ensures subs2[listed[i]] == subs[listed[i]] {
      assert listed[i] == tail[i - 1];
    }
  }

  /** A sweep that goes through makes exactly the calls of `SuspendTrace`:
      one disable, save and SMS per subscriber who owes, in listing order. */
  lemma {:induction false} SuspendInOrderInListingOrder(st: State, listed: seq<SubId>, now: Time, smsUp: bool)
    requires OverdueDistinct(st, listed, now)
    ensures var r := SuspendInOrder(st, listed, now, smsUp);
      r.outcome.Success? ==> r.trace == SuspendTrace(st.ledger, st.subs, listed, smsUp)
    decreases |listed|
  {
    if |listed| > 0 {
      var step := SuspendOne(st, listed[0], now, smsUp);
      if step.outcome.Success? {
        TailUntouched(st.subs, step.st.subs, listed);
        assert OverdueDistinct(step.st, listed[1..], now);
        SuspendInOrderInListingOrder(step.st, listed[1..], now, smsUp);
        SuspendTraceAgrees(st.ledger, st.subs, step.st.subs, listed[1..], smsUp);
      }
    }
  }

  /** A sweep that fails stopped at some position: every owing subscriber
      before it was cut off in order, with those calls opening the trace,
      and every subscription after it is untouched. */
  lemma {:induction false} SuspendInOrderStopsInOrder(st: State, listed: seq<SubId>, now: Time, smsUp: bool)
    requires OverdueDistinct(st, listed, now)
    ensures var r := SuspendInOrder(st, listed, now, smsUp);
      r.outcome.Failure? ==> exists p :: SweepStoppedAt(st.ledger, st.subs, r.st.subs, r.trace, listed, p, smsUp)
    decreases |listed|
  {
    if |listed| > 0 {
      var step := SuspendOne(st, listed[0], now, smsUp);
      TailUntouched(st.subs, step.st.subs, listed);
      if step.outcome.Failure? {
        SweepStoppedAtHead(st.ledger, st.subs, step.st.subs, step.trace, listed, smsUp);
      } else {
        assert OverdueDistinct(step.st, listed[1..], now);
        var rest := SuspendInOrder(step.st, listed[1..], now, smsUp);
        SuspendInOrderStopsInOrder(step.st, listed[1..], now, smsUp);
        if rest.outcome.Failure? {
          var q :| SweepStoppedAt(step.st.ledger, step.st.subs, rest.st.subs, rest.trace, listed[1..], q, smsUp);
          SweepStoppedStep(st.ledger, st.subs, step.st.subs, rest.st.subs, step.trace, rest.trace, listed, q, smsUp);
        }
      }
    }
  }

  /** `suspendExpiredUnpaid`: only overdue ACTIVE subscriptions are looked
      at; those whose subscriber owes become EXPIRED, the rest are left as
      they are. */
  function SuspendExpiredUnpaid(st: State, listed: seq<SubId>, now: Time, smsUp: bool): (r: Run<()>)
    requires SweepListing(st, listed, now)
    ensures r.st.ledger == st.ledger && r.st.packages == st.packages && r.st.subs.Keys == st.subs.Keys
    ensures forall k :: k in st.subs && !Overdue(st.subs[k], now) ==> r.st.subs[k] == st.subs[k]
    ensures forall k :: k in st.subs && !Owes(st.ledger, st.subs[k]) ==> r.st.subs[k] == st.subs[k]
    ensures r.outcome.Success? ==>
      forall k :: k in st.subs && Overdue(st.subs[k], now) && Owes(st.ledger, st.subs[k]) ==>
        r.st.subs[k] == st.subs[k].(status := Expired)
    ensures r.outcome.Success? ==>
      forall k :: k in st.subs && Overdue(st.subs[k], now) && Owes(st.ledger, st.subs[k]) ==>
        CommandThenSave(r.trace, st.subs[k].router, RouterTable.DisableSecret(st.subs[k].user.username), k)
    ensures r.st.routers.Keys == st.routers.Keys
    ensures Replay(st.routers, r.trace) == Some(r.st.routers)
    ensures forall rid :: rid in st.routers && !SweptOn(st, listed, rid) ==> r.st.routers[rid] == st.routers[rid]
    ensures (forall k :: k in st.subs && Overdue(st.subs[k], now) ==> !Owes(st.ledger, st.subs[k])) ==>
      r == Run(st, [], Success(()))
    ensures r.outcome.Success? ==> r.trace == SuspendTrace(st.ledger, st.subs, listed, smsUp)
    ensures r.outcome.Failure? ==> exists p :: SweepStoppedAt(st.ledger, st.subs, r.st.subs, r.trace, listed, p, smsUp)
    ensures WellFormed(st) ==> WellFormed(r.st)
  {
    SuspendInOrderEffects(st, listed, now, smsUp);
    SuspendInOrderInListingOrder(st, listed, now, smsUp);
    SuspendInOrderStopsInOrder(st, listed, now, smsUp);
    SuspendInOrder(st, listed, now, smsUp)
  }
}

=== FILE: lifecycle_proofs.dfy ===
/**
  Properties that relate several runs of the subscription engine, or a run
  of the engine to the router tables it drives.
 */
module LifecycleProofs {
  import opened Outcomes
  import RouterTable
  import Ledger
  import opened Lifecycle

  /** Whether the activation SMS reaches the gateway changes nothing but the
      recorded delivery flag: same world, same returned subscription. */
  lemma SmsNeverAbortsActivation(st: State, id: SubId, clock: Clock)
    requires id in st.subs
    ensures Activate(st, id, clock, false).st == Activate(st, id, clock, true).st
    ensures Activate(st, id, clock, false).outcome == Activate(st, id, clock, true).outcome
    ensures Activate(st, id, clock, false).outcome.Success? ==> Activate(st, id, clock, false).outcome.value.status == Active
  {
  }

  /** Running the sweep a second time with the same clock is a no-op: every
      subscription the second listing returns is one the first run left
      ACTIVE, which it only does when its subscriber owes nothing. */
  lemma SweepTwiceIsNoop(st: State, first: seq<SubId>, second: seq<SubId>, now: Time, smsUp: bool, smsUp2: bool)
    requires SweepListing(st, first, now)
    requires SuspendExpiredUnpaid(st, first, now, smsUp).outcome.Success?
    requires SweepListing(SuspendExpiredUnpaid(st, first, now, smsUp).st, second, now)
    ensures var st1 := SuspendExpiredUnpaid(st, first, now, smsUp).st;
      SuspendExpiredUnpaid(st1, second, now, smsUp2) == Run(st1, [], Success(()))
  {
    var st1 := SuspendExpiredUnpaid(st, first, now, smsUp).st;
    forall i | 0 <= i < |second|
      ensures !Owes(st1.ledger, st1.subs[second[i]])
    {
      var k := second[i];
      assert Overdue(st1.subs[k], now);
      assert Overdue(st.subs[k], now);
      assert !Owes(st.ledger, st.subs[k]);
      assert st1.subs[k] == st.subs[k];
    }
  }

  /** The router for `s` will accept the command reconciliation issues for
      it: the router answers, and an EXPIRED subscriber's secret exists. */
  predicate ReadyFor(st: State, s: Subscription) {
    && s.router in st.routers
    && st.routers[s.router].reachable
    && (s.status == Expired ==> RouterTable.HasName(st.routers[s.router].secrets, s.user.username))
  }

  /** After one successful command, every router that was ready stays ready
      for every subscription it was ready for. */
  lemma {:induction false} ReadyAfterCommand(st: State, st': State, rid: RouterId, cmd: RouterTable.Command, s: Subscription)
    requires rid in st.routers && RouterTable.Apply(st.routers[rid], cmd).Success?
    requires st'.routers == st.routers[rid := RouterTable.Apply(st.routers[rid], cmd).value]
    requires ReadyFor(st, s)
    ensures ReadyFor(st', s)
  {
    if s.router == rid {
      var rt := st.routers[rid];
      if s.status == Expired {
        RouterTable.ApplyKeepsNames(rt, cmd, s.user.username);
      }
    }
  }

  /** The balance re-read inside the reconciliation loop never stops the
      walk: settling books no charge, so a balance at or below zero stays
      there, and with every router ready and the SMS gateway up each listed
      subscription is (re)activated. */
  lemma {:induction false} SettleInOrderReachesEveryListed(st: State, userId: Ledger.UserId, listed: seq<SubId>, clock: Clock)
    requires forall i :: 0 <= i < |listed| ==> listed[i] in st.subs && ReadyFor(st, st.subs[listed[i]])
    requires forall i, j :: 0 <= i < j < |listed| ==> listed[i] != listed[j]
    requires Ledger.Balance(st.ledger, userId) <= 0
    ensures SettleInOrder(st, userId, listed, clock, true).outcome.Success?
    decreases |listed|
  {
    if |listed| > 0 {
      var s := st.subs[listed[0]];
      assert RouterAccepts(st, s, SettleCommand(s));
      var step := SettleOne(st, listed[0], clock, true);
      forall i | 0 <= i < |listed| - 1
        ensures listed[1..][i] in step.st.subs && ReadyFor(step.st, step.st.subs[listed[1..][i]])
      {
        var k := listed[1..][i];
        assert k == listed[i + 1] && k != listed[0];
        ReadyAfterCommand(st, step.st, s.router, SettleCommand(s), st.subs[k]);
      }
      SettleInOrderReachesEveryListed(step.st, userId, listed[1..], clock);
    }
  }

  /** A payment that brings the balance to zero or below, with every
      router ready and the SMS gateway up, leaves every PENDING, PAID and
      EXPIRED subscription of the subscriber ACTIVE for a fresh month. */
  lemma PaymentThatSettlesActivatesAll(st: State, user: User, amount: int, reference: string, listed: seq<SubId>, clock: Clock)
    requires ReconcileListing(st, user.id, listed)
    requires Ledger.Balance(st.ledger, user.id) - amount <= 0
    requires forall i :: 0 <= i < |listed| ==> ReadyFor(st, st.subs[listed[i]])
    ensures var r := HandlePayment(st, user, amount, reference, listed, clock, true);
      && r.outcome.Success?
      && forall k :: k in st.subs && st.subs[k].user.id == user.id && st.subs[k].status in {Pending, Paid, Expired} ==>
           r.st.subs[k].status == Active
           && r.st.subs[k].start == Some(clock.now)
           && r.st.subs[k].expiry == Some(clock.monthLater)
  {
    var payment := Ledger.Payment(user.id, amount, reference);
    Ledger.BalanceAppend(st.ledger, payment, user.id);
    var st1 := st.(ledger := st.ledger + [payment]);
    SettleInOrderReachesEveryListed(st1, user.id, listed, clock);
    var r := HandlePayment(st, user, amount, reference, listed, clock, true);
    forall k | k in st.subs && st.subs[k].user.id == user.id && st.subs[k].status in {Pending, Paid, Expired}
      ensures r.st.subs[k].status == Active && r.st.subs[k].start == Some(clock.now) && r.st.subs[k].expiry == Some(clock.monthLater)
    {
      var i :| 0 <= i < |listed| && listed[i] == k;
      assert Activated(st.subs[listed[i]], r.st.subs[listed[i]], clock);
    }
  }

  /** A payment that still leaves money owing changes no subscription and
      issues no router command, whatever the listing holds. */
  lemma PaymentThatLeavesDebtChangesNothing(st: State, user: User, amount: int, reference: string, listed: seq<SubId>, clock: Clock, smsUp: bool)
    requires ReconcileListing(st, user.id, listed)
    requires Ledger.Balance(st.ledger, user.id) - amount > 0
    ensures var r := HandlePayment(st, user, amount, reference, listed, clock, smsUp);
      r.st == st.(ledger := st.ledger + [Ledger.Payment(user.id, amount, reference)])
      && r.trace == [Booked(Ledger.Payment(user.id, amount, reference))]
  {
  }

  /** Re-activating a subscription whose secret already exists (a second
      auto-activating `markAsPaid`) adds a second row with the same name,
      and the router lookup keeps addressing the older row. */
  lemma ReactivationDuplicatesSecret(st: State, id: SubId, receipt: string, clock: Clock, smsUp: bool)
    requires id in st.subs
    requires var s := st.subs[id];
      s.router in st.routers && RouterTable.HasName(st.routers[s.router].secrets, s.user.username)
    requires MarkAsPaid(st, id, receipt, true, clock, smsUp).outcome.Success?
    ensures var s := st.subs[id];
      var before := st.routers[s.router].secrets;
      var after := MarkAsPaid(st, id, receipt, true, clock, smsUp).st.routers[s.router].secrets;
      && |after| == |before| + 1
      && after[|before|].name == s.user.username
      && RouterTable.FirstMatch(after, s.user.username) == RouterTable.FirstMatch(before, s.user.username)
  {
    var s := st.subs[id];
    var s1 := s.(paymentRef := Some(receipt));
    var rt := st.routers[s.router];
    assert AddSecretFor(s1) == AddSecretFor(s);
    assert RouterTable.Apply(rt, AddSecretFor(s)) == RouterTable.CreateUser(rt, s.user.username, s.user.password, s.pkg.profile);
    RouterTable.CreateThenFirstMatch(rt, s.user.username, s.user.password, s.pkg.profile);
  }

  // ---------------------------------------------------------------------
  // createByAdmin: as written versus as intended
  // ---------------------------------------------------------------------

  const NoRouters: State := State(map[], map[], [], map[])
  const Customer: User := User("u1", "alice", "pw", "0700000000", "r1")
  const Basic: Package := Package("p1", "Basic", 1000, "basic")
  const Noon: Clock := ClockReading(100, 200)

  /** With the customer's router unreachable, an admin creation that
      activates at once fails after saving the record ACTIVE: the
      subscription is ACTIVE with no period, breaks the timed invariant, is
      never listed by the sweep and is refused by `activateLater`. */
  lemma CreateByAdminStrandsActiveSubscription()
    ensures var r := CreateByAdmin(NoRouters, Customer, Basic, true, "s1", Noon, true);
      && WellFormed(NoRouters)
      && r.outcome.Failure?
      && !WellFormed(r.st)
      && (forall now :: !Overdue(r.st.subs["s1"], now))
      && ActivateLater(r.st, "s1", Noon, true).outcome == Failure(CannotActivate)
  {
    var r := CreateByAdmin(NoRouters, Customer, Basic, true, "s1", Noon, true);
    assert r.st.subs["s1"].status == Active && r.st.subs["s1"].start.None?;
    assert !Timed(r.st.subs["s1"]);
  }

  /** The corrected creation keeps the invariant on every path, and after a
      device failure the PENDING record is activated by `activateLater` as
      soon as the user's router answers (`rt` is that router, now
      reachable). */
  lemma CreateByAdminCorrectedIsRetryable(st: State, user: User, pkg: Package, id: SubId, clock: Clock, smsUp: bool, rt: RouterTable.Router)
    requires id !in st.subs
    requires WellFormed(st)
    requires rt.reachable
    ensures var r := CreateByAdminCorrected(st, user, pkg, true, id, clock, smsUp);
      && WellFormed(r.st)
      && (r.outcome.Failure? ==>
            && r.st.subs[id].status == Pending
            && ActivateLater(r.st, id, clock, smsUp).outcome != Failure(CannotActivate)
            && var later := ActivateLater(r.st.(routers := r.st.routers[user.router := rt]), id, clock, smsUp);
            && later.outcome.Success?
            && Activated(NewPending(user, pkg), later.outcome.value, clock))
  {
    var r := CreateByAdminCorrected(st, user, pkg, true, id, clock, smsUp);
    if r.outcome.Failure? {
      var st2 := r.st.(routers := r.st.routers[user.router := rt]);
      assert RouterTable.Apply(rt, AddSecretFor(st2.subs[id])).Success?;
    }
  }
}

=== FILE: outcomes.dfy ===
/** Failure-carrying datatypes shared by every module of the model. */
module Outcomes {

  /** A value that may be absent: Java's nullable references and `Optional`. */
  datatype Option<+T> = None | Some(value: T)

  /** The outcome of an operation that either produces a value or throws. */
  datatype Result<+R, +E> = Success(value: R) | Failure(error: E) {

    predicate IsFailure() {
      Failure?
    }

    function PropagateFailure<U>(): Result<U, E>
      requires Failure?
    {
      Failure(error)
    }

    function Extract(): R
      requires Success?
    {
      value
    }
  }
}

=== FILE: payment_callback.dfy ===
/**
  The payment gateway's callback: five fields are pulled out of the
  `response` object, the transaction is logged unconditionally, and the
  subscription is activated only for a successful payment. Logging and
  activation belong to services outside this model; they appear as the
  ordered calls the handler makes.
 */
module PaymentCallback {
  import opened Outcomes
  import JavaText

  /** The callback's `response` object, each value as its `toString()`; a
      key bound to JSON null counts as absent. */
  type Response = map<string, string>

  const ExternalReference: string := "ExternalReference"
  const MpesaReceiptNumber: string := "MpesaReceiptNumber"
  const StatusKey: string := "Status"
  const ResultCode: string := "ResultCode"
  const Amount: string := "Amount"

  /** The extracted fields; the amount is kept as the text that parsed. */
  datatype Fields = Fields(externalRef: string, receipt: string, status: string, resultCode: int, amount: string)

  datatype CallbackError =
    | NoResponse
    | MissingField(key: string)
    | NotANumber(key: string)
    | ActivationFailed

  datatype Call =
    | LogTransaction(externalRef: string, receipt: string, status: string, amount: string)
    | ActivateSubscription(externalRef: string, receipt: string)

  /** The calls made, in order, and what the handler returned or threw. */
  datatype Reply = Reply(calls: seq<Call>, result: Result<string, CallbackError>)

  /** A payload from which all five fields can be read. */
  predicate Readable(response: Option<Response>) {
    && response.Some?
    && var m := response.value;
    && ExternalReference in m && MpesaReceiptNumber in m && StatusKey in m && ResultCode in m && Amount in m
    && JavaText.ParseInt(m[ResultCode]).Some?
    && JavaText.IsJavaDouble(m[Amount])
  }

  function Field(m: Response, key: string): Result<string, CallbackError> {
    if key in m then Success(m[key]) else Failure(MissingField(key))
  }

  /** The handler's field reads, in its order: reference, receipt, status,
      result code, amount; the first missing or non-numeric one aborts. */
  function Extract(response: Option<Response>): (r: Result<Fields, CallbackError>)
    ensures r.Success? <==> Readable(response)
    ensures r.Success? ==>
      && var m := response.value;
      && r.value.externalRef == m[ExternalReference]
      && r.value.receipt == m[MpesaReceiptNumber]
      && r.value.status == m[StatusKey]
      && Some(r.value.resultCode) == JavaText.ParseInt(m[ResultCode])
      && r.value.amount == m[Amount]
    ensures response.None? ==> r == Failure(NoResponse)
  {
    if response.None? then Failure(NoResponse)
    else
      var m := response.value;
      var externalRef :- Field(m, ExternalReference);
      var receipt :- Field(m, MpesaReceiptNumber);
      var status :- Field(m, StatusKey);
      var codeText :- Field(m, ResultCode);
      match JavaText.ParseInt(codeText)
      case None => Failure(NotANumber(ResultCode))
      case Some(code) =>
        var amountText :- Field(m, Amount);
        if !JavaText.IsJavaDouble(amountText) then Failure(NotANumber(Amount))
        else Success(Fields(externalRef, receipt, status, code, amountText))
  }

  /** The gateway reports a completed payment. */
  predicate PaymentSucceeded(f: Fields) {
    f.resultCode == 0 && JavaText.EqualsIgnoreCase("Success", f.status)
  }

  /** `handleCallback`. `activationOk` is whether the (unmodelled)
      activation service returns normally. */
  function HandleCallback(response: Option<Response>, activationOk: bool): (r: Reply)
    ensures !Readable(response) ==> r.calls == [] && r.result.Failure?
    ensures Readable(response) ==>
      && var f := Extract(response).value;
      && |r.calls| >= 1
      && r.calls[0] == LogTransaction(f.externalRef, f.receipt, f.status, f.amount)
      && (forall i :: 1 <= i < |r.calls| ==> !r.calls[i].LogTransaction?)
      && (|r.calls| == 2 <==> PaymentSucceeded(f))
      && (|r.calls| <= 2)
      && (PaymentSucceeded(f) ==> r.calls[1] == ActivateSubscription(f.externalRef, f.receipt))
    ensures r.result.Success? <==>
      Readable(response) && (PaymentSucceeded(Extract(response).value) ==> activationOk)
    ensures r.result.Success? ==> r.result.value == "OK"
  {
    match Extract(response)
    case Failure(e) => Reply([], Failure(e))
    case Success(f) =>
      var log := LogTransaction(f.externalRef, f.receipt, f.status, f.amount);
      if PaymentSucceeded(f) then
        Reply([log, ActivateSubscription(f.externalRef, f.receipt)],
              if activationOk then Success("OK") else Failure(ActivationFailed))
      else
        Reply([log], Success("OK"))
  }

  /** Activation is requested exactly for a zero result code (any sign, any
      number of zeros) together with a case-insensitive "Success". */
  lemma ActivationDecision(response: Option<Response>, activationOk: bool)
    requires Readable(response)
    ensures var m := response.value;
      (exists i :: 0 <= i < |HandleCallback(response, activationOk).calls|
                    && HandleCallback(response, activationOk).calls[i].ActivateSubscription?)
      <==>
      && JavaText.IsZeroNumeral(m[ResultCode])
      && |m[StatusKey]| == 7
      && forall i :: 0 <= i < 7 ==> m[StatusKey][i] in JavaText.Spellings("Success"[i])
  {
    var m := response.value;
    JavaText.ParseIntZero(m[ResultCode]);
    JavaText.SuccessSpellings(m[StatusKey]);
    var calls := HandleCallback(response, activationOk).calls;
    if PaymentSucceeded(Extract(response).value) {
      assert calls[1].ActivateSubscription?;
    }
  }
}

=== FILE: router_table.dfy ===
/**
  The device side of the PPPoE service: a MikroTik router seen as its table
  of PPPoE secrets. Opening a session and logging in is collapsed into one
  `reachable` flag; the command strings themselves are not modelled, only
  their effect on the table.
 */
module RouterTable {
  import opened Outcomes

  /** One row of `/ppp/secret`. `id` is the router's `.id` for the row. */
  datatype Secret = Secret(
    id: nat,
    name: string,
    password: string,
    service: string,
    profile: string,
    disabled: bool)

  /** A router: whether a session can be opened and logged into, its
      secret table, and the `.id` the next added row will receive. */
  datatype Router = Router(reachable: bool, secrets: seq<Secret>, nextId: nat)

  /** Why a command failed. */
  datatype Cause = Unreachable | UserNotFound(name: string)

  /** Each operation wraps every failure into one error of its own. */
  datatype DeviceError =
    | CreateFailed(cause: Cause)
    | DisableFailed(cause: Cause)
    | ProfileUpdateFailed(cause: Cause)
    | EnableFailed(cause: Cause)

  /** The four commands the subscription engine issues. */
  datatype Command =
    | AddSecret(name: string, password: string, profile: string)
    | DisableSecret(name: string)
    | EnableSecret(name: string)
    | SetProfile(name: string, password: string, profile: string)

  const PppoeService: string := "pppoe"

  /** Some row of the table carries `name`. */
  predicate HasName(secrets: seq<Secret>, name: string) {
    exists i :: 0 <= i < |secrets| && secrets[i].name == name
  }

  /** `i` is the first row whose name is `name`. */
  predicate IsFirstMatch(secrets: seq<Secret>, name: string, i: int) {
    && 0 <= i < |secrets|
    && secrets[i].name == name
    && forall j :: 0 <= j < i ==> secrets[j].name != name
  }

  /** Linear scan from row `k`, every row before `k` known not to match. */
  function FirstMatchFrom(secrets: seq<Secret>, name: string, k: nat): (r: Option<nat>)
    requires k <= |secrets|
    requires forall j :: 0 <= j < k ==> secrets[j].name != name
    ensures r.Some? ==> IsFirstMatch(secrets, name, r.value)
    ensures r.None? ==> forall j :: 0 <= j < |secrets| ==> secrets[j].name != name
    decreases |secrets| - k
  {
    if k == |secrets| then None
    else if secrets[k].name == name then Some(k)
    else FirstMatchFrom(secrets, name, k + 1)
  }

  /** The `filter(name).findFirst()` lookup of the secret list. */
  function FirstMatch(secrets: seq<Secret>, name: string): (r: Option<nat>)
    ensures r.Some? <==> HasName(secrets, name)
    ensures r.Some? ==> IsFirstMatch(secrets, name, r.value)
  {
    FirstMatchFrom(secrets, name, 0)
  }

  /** At most one row is the first match. */
  lemma FirstMatchUnique(secrets: seq<Secret>, name: string, i: int, j: int)
    requires IsFirstMatch(secrets, name, i) && IsFirstMatch(secrets, name, j)
    ensures i == j
  {
  }

  /** `/ppp/secret/add`: append one enabled pppoe secret. */
  function CreateUser(rt: Router, name: string, password: string, profile: string): (r: Result<Router, DeviceError>)
    ensures r.Success? <==> rt.reachable
    ensures r.Failure? ==> r.error == CreateFailed(Unreachable)
    ensures r.Success? ==>
      && r.value.reachable
      && |r.value.secrets| == |rt.secrets| + 1
      && r.value.secrets[..|rt.secrets|] == rt.secrets
      && r.value.secrets[|rt.secrets|].name == name
      && r.value.secrets[|rt.secrets|].password == password
      && r.value.secrets[|rt.secrets|].service == PppoeService
      && r.value.secrets[|rt.secrets|].profile == profile
      && !r.value.secrets[|rt.secrets|].disabled
      && r.value.secrets[|rt.secrets|].id < r.value.nextId
  {
    if !rt.reachable then Failure(CreateFailed(Unreachable))
    else
      var row := Secret(rt.nextId, name, password, PppoeService, profile, false);
      Success(Router(true, rt.secrets + [row], rt.nextId + 1))
  }

  /** Session plus lookup shared by the three `set` commands. */
  function Locate(rt: Router, name: string): (r: Result<nat, Cause>)
    ensures r.Success? <==> rt.reachable && HasName(rt.secrets, name)
    ensures r.Success? ==> IsFirstMatch(rt.secrets, name, r.value)
    ensures r.Failure? ==> r.error == (if rt.reachable then UserNotFound(name) else Unreachable)
  {
    if !rt.reachable then Failure(Unreachable)
    else match FirstMatch(rt.secrets, name)
      case None => Failure(UserNotFound(name))
      case Some(i) => Success(i)
  }

  /** `/ppp/secret/set .id=<first match> disabled=yes`. */
  function DisableUser(rt: Router, name: string): (r: Result<Router, DeviceError>)
    ensures r.Success? <==> rt.reachable && HasName(rt.secrets, name)
    ensures r.Failure? ==> r.error.DisableFailed?
    ensures forall i :: r.Success? && IsFirstMatch(rt.secrets, name, i) ==>
      r.value == rt.(secrets := rt.secrets[i := rt.secrets[i].(disabled := true)])
  {
    match Locate(rt, name)
    case Failure(c) => Failure(DisableFailed(c))
    case Success(i) => Success(rt.(secrets := rt.secrets[i := rt.secrets[i].(disabled := true)]))
  }

  /** `/ppp/secret/set .id=<first match> disabled=no`. */
  function EnableUser(rt: Router, name: string): (r: Result<Router, DeviceError>)
    ensures r.Success? <==> rt.reachable && HasName(rt.secrets, name)
    ensures r.Failure? ==> r.error.EnableFailed?
    ensures forall i :: r.Success? && IsFirstMatch(rt.secrets, name, i) ==>
      r.value == rt.(secrets := rt.secrets[i := rt.secrets[i].(disabled := false)])
  {
    match Locate(rt, name)
    case Failure(c) => Failure(EnableFailed(c))
    case Success(i) => Success(rt.(secrets := rt.secrets[i := rt.secrets[i].(disabled := false)]))
  }

  /** `/ppp/secret/set .id=<first match> profile=<newProfile>`; the password
      argument is accepted but never reaches the command. */
  function UpdateProfile(rt: Router, name: string, password: string, profile: string): (r: Result<Router, DeviceError>)
    ensures r.Success? <==> rt.reachable && HasName(rt.secrets, name)
    ensures r.Failure? ==> r.error.ProfileUpdateFailed?
    ensures forall i :: r.Success? && IsFirstMatch(rt.secrets, name, i) ==>
      r.value == rt.(secrets := rt.secrets[i := rt.secrets[i].(profile := profile)])
  {
    match Locate(rt, name)
    case Failure(c) => Failure(ProfileUpdateFailed(c))
    case Success(i) => Success(rt.(secrets := rt.secrets[i := rt.secrets[i].(profile := profile)]))
  }

  /** Dispatch of a command to the operation that issues it. */
  function Apply(rt: Router, cmd: Command): (r: Result<Router, DeviceError>)
    ensures r.Success? ==> rt.reachable && r.value.reachable
    ensures !cmd.AddSecret? ==> (r.Success? <==> rt.reachable && HasName(rt.secrets, cmd.name))
  {
    match cmd
    case AddSecret(n, p, prof) => CreateUser(rt, n, p, prof)
    case DisableSecret(n) => DisableUser(rt, n)
    case EnableSecret(n) => EnableUser(rt, n)
    case SetProfile(n, p, prof) => UpdateProfile(rt, n, p, prof)
  }

  /** The error a command reports when its router cannot be reached at all. */
  function UnreachableError(cmd: Command): (e: DeviceError)
    ensures e.cause == Unreachable
    ensures e.CreateFailed? <==> cmd.AddSecret?
    ensures e.DisableFailed? <==> cmd.DisableSecret?
    ensures e.EnableFailed? <==> cmd.EnableSecret?
  {
    match cmd
    case AddSecret(_, _, _) => CreateFailed(Unreachable)
    case DisableSecret(_) => DisableFailed(Unreachable)
    case EnableSecret(_) => EnableFailed(Unreachable)
    case SetProfile(_, _, _) => ProfileUpdateFailed(Unreachable)
  }

  // ---------------------------------------------------------------------
  // Properties of the table operations
  // ---------------------------------------------------------------------

  /** The lookup only looks at names: tables that agree on every row's name
      have the same first match. */
  lemma {:induction false} FirstMatchFromOnlyReadsNames(a: seq<Secret>, b: seq<Secret>, name: string, k: nat)
    requires |a| == |b| && k <= |a|
    requires forall j :: 0 <= j < |a| ==> a[j].name == b[j].name
    requires forall j :: 0 <= j < k ==> a[j].name != name
    ensures FirstMatchFrom(a, name, k) == FirstMatchFrom(b, name, k)
    decreases |a| - k
  {
    if k < |a| && a[k].name != name {
      FirstMatchFromOnlyReadsNames(a, b, name, k + 1);
    }
  }

  /** Applying the same `set` twice is applying it once: disabling twice
      equals disabling once. */
  lemma DisableIdempotent(rt: Router, name: string)
    requires DisableUser(rt, name).Success?
    ensures DisableUser(DisableUser(rt, name).value, name) == DisableUser(rt, name)
  {
    var i := FirstMatch(rt.secrets, name).value;
    var rt1 := DisableUser(rt, name).value;
    FirstMatchFromOnlyReadsNames(rt.secrets, rt1.secrets, name, 0);
    assert rt1.secrets[i := rt1.secrets[i].(disabled := true)] == rt1.secrets;
  }

  /** Enabling after a disable clears the flag on the same row and touches
      nothing else; when the row was enabled to begin with, the table is
      back where it started. */
  lemma EnableAfterDisable(rt: Router, name: string)
    requires DisableUser(rt, name).Success?
    ensures var rt1 := DisableUser(rt, name).value;
      var i := FirstMatch(rt.secrets, name).value;
      && EnableUser(rt1, name).Success?
      && EnableUser(rt1, name).value.secrets == rt.secrets[i := rt.secrets[i].(disabled := false)]
      && (!rt.secrets[i].disabled ==> EnableUser(rt1, name).value == rt)
  {
    var i := FirstMatch(rt.secrets, name).value;
    var rt1 := DisableUser(rt, name).value;
    FirstMatchFromOnlyReadsNames(rt.secrets, rt1.secrets, name, 0);
    assert IsFirstMatch(rt1.secrets, name, i);
    if !rt.secrets[i].disabled {
      assert rt.secrets[i := rt.secrets[i].(disabled := false)] == rt.secrets;
    }
  }

  /** No command removes a name from the table, and a router that answered
      stays reachable. */
  lemma ApplyKeepsNames(rt: Router, cmd: Command, name: string)
    requires Apply(rt, cmd).Success? && HasName(rt.secrets, name)
    ensures Apply(rt, cmd).value.reachable
    ensures HasName(Apply(rt, cmd).value.secrets, name)
  {
    var j :| 0 <= j < |rt.secrets| && rt.secrets[j].name == name;
    var after := Apply(rt, cmd).value.secrets;
    if cmd.AddSecret? {
      assert after[j] == rt.secrets[j];
    } else {
      var i := FirstMatch(rt.secrets, cmd.name).value;
      assert IsFirstMatch(rt.secrets, cmd.name, i);
      assert after[j].name == name;
    }
  }

  /** The password handed to `updateProfile` has no effect on the router. */
  lemma ProfileIgnoresPassword(rt: Router, name: string, p1: string, p2: string, profile: string)
    ensures UpdateProfile(rt, name, p1, profile) == UpdateProfile(rt, name, p2, profile)
  {
  }

  /** Adding a secret whose name is already taken does not move the lookup:
      later disable/enable/profile commands still address the older row. A
      fresh name is found at the new, last row. */
  lemma {:induction false} CreateThenFirstMatch(rt: Router, name: string, password: string, profile: string)
    requires CreateUser(rt, name, password, profile).Success?
    ensures var after := CreateUser(rt, name, password, profile).value.secrets;
      FirstMatch(after, name) ==
        if HasName(rt.secrets, name) then FirstMatch(rt.secrets, name) else Some(|rt.secrets|)
  {
    var after := CreateUser(rt, name, password, profile).value.secrets;
    assert after[|rt.secrets|].name == name;
    assert forall j :: 0 <= j < |rt.secrets| ==> after[j] == rt.secrets[j];
    var m := FirstMatch(after, name).value;
    if HasName(rt.secrets, name) {
      var i := FirstMatch(rt.secrets, name).value;
      assert IsFirstMatch(after, name, i);
      FirstMatchUnique(after, name, i, m);
    } else {
      assert IsFirstMatch(after, name, |rt.secrets|);
      FirstMatchUnique(after, name, |rt.secrets|, m);
    }
  }
}
